=== FILE: README.md ===
# LangTrainer core in Dafny

LangTrainer is a console vocabulary trainer. It reads a tab-separated
dictionary file. A line starting with `*` names a section. Every other
kept line is an entry: a type column, a word column, and a meaning column.
Before splitting, each entry line is repaired: tabs after the second are
deleted, and a `-` marker pair after the second tab is cut out. The
trainer then asks for the meaning of a word. It counts the errors of the
answer against the meaning, searches the dictionary for the meaning
nearest to the answer, and prints a verdict.

This project models that text-processing and grading logic of
`LangTrainer/LangTrainer.cpp` as pure Dafny functions, methods and lemmas:

- `Cpp`: `size_t` arithmetic, which wraps modulo 2^64, and `Behaviour`.
  `Behaviour` is `Defined(value)` or `Undefined`. A computation that erases
  or indexes past the end of a string or vector, or throws, is `Undefined`.
- `Strings`: `countElements` (`CountElements`), the corrected tab split
  (`Split`/`Join`), `std::string::find` from a position (`FindFrom`), and
  deletion of every occurrence of a character (`RemoveAll`).
- `Columns`: `extractColomnsFromRow` in two forms. `ExtractColumnsAsWritten`
  follows the code as written, `size_t` wrap-around included.
  `ExtractColumns` is the evidently intended split.
- `RowRepair`: `adaptStringRow` as `AdaptRow`. It is split into
  `MergeExtraTabs`, the tab-deleting loop, and `EraseMarker`, the
  `find`/`erase` of the marker. `EraseMarker` includes the `npos`
  wrap-around when no `-` follows the second tab.
- `Loader`: the line filter of `extractAllWords`, the parse of one entry
  line (`ParseEntry`), and the loop over the kept lines (`Fold`,
  `ExtractAllWords`).
- `ErrorMetric`: `countErrorsInString`. It counts the length difference
  plus the mismatches over the common prefix. It is not an edit distance.
- `Grading`: `findAtLeastErrorsMean` as a loop that finds the first
  minimum, and the decisions of `testWordMean` as a `Verdict`.

The dictionary file is given as its sequence of lines. Each `char` of a
line stands for one byte, as `std::string` holds it: lengths, the
ten-character filter, `find` and the error count all work per byte.
Console output is replaced by the returned verdict.

## Model

| member | source | states |
|---|---|---|
| Strings.CountElements | LangTrainer/LangTrainer.cpp:38-46 | every reported index holds the character, and there are as many indices as occurrences of it |
| Strings.CountElementsPositions | LangTrainer/LangTrainer.cpp:38-46 | the result lists exactly the indices holding the character, strictly increasing, with every occurrence present |
| Strings.PositionsAreCountElements | LangTrainer/LangTrainer.cpp:38-46 | any strictly increasing list of all the positions of a character is the result of `countElements`, so that result is unique |
| Strings.FindFrom | LangTrainer/LangTrainer.cpp:77 | `find` from a position returns the first occurrence at or after it; `npos` (None) means no occurrence there |
| Strings.SplitJoin | LangTrainer/LangTrainer.cpp:48-63 | splitting the tab-join of tab-free columns gives those columns back |
| Strings.JoinInjective | LangTrainer/LangTrainer.cpp:48-63 | two lists of tab-free columns with the same join are equal, so a row has one column reading |
| Columns.ExtractColumns | LangTrainer/LangTrainer.cpp:48-63 | the intended split: one column more than the row has tabs, no column holds a tab, and joining the columns with tabs rebuilds the row |
| Columns.TwoTabColumns | LangTrainer/LangTrainer.cpp:48-63 | a row whose tabs are exactly at two positions splits into the text before the first tab, between the tabs, and after the second |
| Columns.AsWrittenAgreesUpToTwoTabs | LangTrainer/LangTrainer.cpp:48-63 | on rows with at most two tabs the loop as written has a result, and it is the intended split |
| Columns.AsWrittenSplitsThreeTabRowWrongly | LangTrainer/LangTrainer.cpp:58 | on "a\tb\tc\td" the loop as written gives a, b, "c\td", "c\td" where the intended split gives a, b, c, d |
| Columns.AsWrittenSplitsUnwrappedRowWrongly | LangTrainer/LangTrainer.cpp:58 | on "a\tb\tccc\td", where no counter wraps, the loop as written gives a, b, "c", "c\td" where the intended split gives a, b, "ccc", "d" |
| RowRepair.EraseExtraTabsMeaning | LangTrainer/LangTrainer.cpp:75-76 | the deletion loop, with its `tabs[i] - (i - 2)` shift, deletes exactly the tabs after the second one and keeps everything else in order |
| RowRepair.MergeExtraTabs | LangTrainer/LangTrainer.cpp:75-76 | after the loop the row is its prefix through the second tab followed by the rest with every tab deleted |
| RowRepair.Tail | LangTrainer/LangTrainer.cpp:75-76 | the merged rest holds no tab and is shorter than the rest by its number of tabs |
| RowRepair.FindAndEraseIsCutMarker | LangTrainer/LangTrainer.cpp:77-78 | on a text holding a `-` that is not its last character, `find` then `erase` of two characters cuts the first `-` and its follower |
| RowRepair.CuttableIffFound | LangTrainer/LangTrainer.cpp:77-78 | the marker can be cut exactly when `find` succeeds at a place with a character after it |
| RowRepair.CutMarker | LangTrainer/LangTrainer.cpp:78 | cutting the marker removes two characters and adds none |
| RowRepair.EraseMarkerDefinedness | LangTrainer/LangTrainer.cpp:77-78 | the erase is defined exactly when a cuttable `-` follows the second tab, or no `-` does and `npos + tabs[1]` wraps back inside the row |
| RowRepair.EraseMarkerCuts | LangTrainer/LangTrainer.cpp:77-78 | with a cuttable marker, the erase keeps the text through the second tab and cuts the marker from the rest |
| RowRepair.EraseMarkerWraps | LangTrainer/LangTrainer.cpp:77-78 | with no `-` after the second tab, the wrapped index erases the character before the second tab and the tab itself |
| RowRepair.AdaptRowDefinedness | LangTrainer/LangTrainer.cpp:73-79 | `adaptStringRow` is defined exactly on rows with at least two tabs whose merged rest has a cuttable marker or no `-` at all |
| RowRepair.AdaptRowCutsMarker | LangTrainer/LangTrainer.cpp:73-79 | on an adaptable row the result keeps the prefix through the second tab and has exactly the first two tabs, at their positions; it is shorter by the extra tabs plus two |
| RowRepair.AdaptRowWithoutMarker | LangTrainer/LangTrainer.cpp:77-78 | with no `-` after the second tab, the second tab and the character before it disappear, leaving one tab or none |
| Loader.KeepLineMeaning | LangTrainer/LangTrainer.cpp:85 | a line is kept exactly when it is non-empty, does not start with `#`, and is at least ten long or starts with `*` |
| Loader.Filter | LangTrainer/LangTrainer.cpp:27-31 | a line is among the kept ones exactly when it is in the file and passes the filter, and every kept line passes it |
| Loader.FilterSingle | LangTrainer/LangTrainer.cpp:29-30 | a single line is kept as itself when it passes the filter and dropped otherwise |
| Loader.FilterAppend | LangTrainer/LangTrainer.cpp:27-31 | the kept lines of two stretches of the file are those of the first followed by those of the second, so file order and repeated lines are preserved |
| Loader.FilterIdempotent | LangTrainer/LangTrainer.cpp:85 | filtering the kept lines again changes nothing |
| Loader.SectionName | LangTrainer/LangTrainer.cpp:89-90 | the section name is the header line without its leading `*` |
| Loader.AdaptedRowSplitsAsWritten | LangTrainer/LangTrainer.cpp:92-93 | a repaired row has at most two tabs, so the split as written gives the intended columns on it |
| Loader.ParseAdaptableEntry | LangTrainer/LangTrainer.cpp:91-96 | an adaptable row is read as the text before the first tab, the text between the first two tabs, and the merged rest with its marker cut |
| Loader.ParseEntryWithoutMarker | LangTrainer/LangTrainer.cpp:91-96 | a row with no `-` after the second tab has no entry, because fewer than three columns remain |
| Loader.ParseEntryDefinedness | LangTrainer/LangTrainer.cpp:91-96 | an entry line has a result exactly when it is adaptable and its first column is non-empty |
| Loader.LineParses | LangTrainer/LangTrainer.cpp:91-96 | a line has an entry exactly when it is an entry line, and the entry has the type, word, meaning and section described above |
| Loader.Fold | LangTrainer/LangTrainer.cpp:88-99 | the loop produces at most one entry per line |
| Loader.FoldEntries | LangTrainer/LangTrainer.cpp:88-99 | the loop has a result exactly when every non-header line parses; it then holds one entry per non-header line, in order, each parsed in the section of the last header above it |
| Loader.ExtractAllWordsMeaning | LangTrainer/LangTrainer.cpp:80-101 | the whole load has a result exactly when every kept non-header line is an entry line; its entries are those lines' entries, in file order, sections carried from the last header (empty before any) |
| ErrorMetric.ErrorCount | LangTrainer/LangTrainer.cpp:65-71 | the count lies between the difference of the lengths and the longer length |
| ErrorMetric.CountErrorsInString | LangTrainer/LangTrainer.cpp:65-71 | the loop returns the length difference plus the size of the set of differing places of the common prefix |
| ErrorMetric.MismatchesCountSet | LangTrainer/LangTrainer.cpp:67-69 | counting mismatches place by place gives the size of the set of differing places |
| ErrorMetric.MatchesCount | LangTrainer/LangTrainer.cpp:67-69 | the agreeing places of the common prefix are its length minus the mismatches |
| ErrorMetric.ErrorCountZero | LangTrainer/LangTrainer.cpp:65-71 | the count is zero exactly when the two strings are equal |
| ErrorMetric.ErrorCountSymmetric | LangTrainer/LangTrainer.cpp:65-71 | swapping meaning and answer does not change the count |
| ErrorMetric.ErrorCountIsPadded | LangTrainer/LangTrainer.cpp:65-71 | the count equals the number of places where the strings differ, a missing character counting as different |
| ErrorMetric.ErrorCountTriangle | LangTrainer/LangTrainer.cpp:65-71 | the count obeys the triangle inequality, so it is a distance between strings |
| ErrorMetric.OneError | LangTrainer/LangTrainer.cpp:65-71 | one error is one wrong character at equal lengths, or one character too many or too few after a right prefix |
| Grading.FindAtLeastErrorsMean | LangTrainer/LangTrainer.cpp:104-116 | the search has a result exactly when some entry has fewer than `SIZE_MAX` errors; the result is in range, no entry has fewer errors, and every earlier entry has strictly more |
| Grading.NearestExact | LangTrainer/LangTrainer.cpp:104-116 | when the nearest meaning is the answer itself, it is the first entry with that meaning |
| Grading.DecentAsWrittenAgrees | LangTrainer/LangTrainer.cpp:130 | while the subtraction does not wrap, the test as written is "more than half of the meaning's length is left after the errors" |
| Grading.DecentAsWrittenWraps | LangTrainer/LangTrainer.cpp:130 | every answer with more errors than the meaning has characters passes the test as written, and none passes the intended test |
| Grading.DecentAsWrittenNotMonotone | LangTrainer/LangTrainer.cpp:130 | against "ab", the answer "xyz" (3 errors) is called decent while "xy" (2 errors) is too bad |
| Grading.DecentMeansMostlyInPlace | LangTrainer/LangTrainer.cpp:130 | a decent answer has more than half of the meaning's characters in place |
| Grading.Judge | LangTrainer/LangTrainer.cpp:120-133 | the verdict with the intended decent test: Correct exactly when the answer is the meaning; otherwise "did you mean" exactly when the nearest entry's meaning is the answer and has the same word; otherwise Typo exactly at one error; otherwise Decent exactly when more than half the meaning's length is left after the errors, else too bad |
| Grading.JudgeAsWritten | LangTrainer/LangTrainer.cpp:120-133 | the verdict as written: the same branches, with Decent exactly when the unsigned test of line 130 holds |
| Grading.JudgeAsWrittenAgrees | LangTrainer/LangTrainer.cpp:130 | while the answer has no more errors than the meaning has characters, the verdict as written is the intended one |
| Grading.JudgeAsWrittenWraps | LangTrainer/LangTrainer.cpp:130 | an answer that is not a suggestion, with at least two errors and more errors than the meaning has characters, is Decent as written and too bad as intended |
| Grading.TestWordMean | LangTrainer/LangTrainer.cpp:118-136 | an exact answer is Correct without a search; any other answer is judged as written against the first nearest entry, which exists whenever the tested entry's count is below `SIZE_MAX` |
| Grading.NearestNoWorse | LangTrainer/LangTrainer.cpp:123-126 | the nearest entry has no more errors than the tested one, and a suggestion names another entry whose meaning is the answer |

## Left out

- Reading the file (`splitStringFromFile`, lines 16-35) is I/O. The file
  is given as its sequence of lines, with the empty line after the final
  newline included; the filter drops it. The "No" message for a missing
  file is not modelled.
- Text encoding is not modelled. A line is given as its bytes, one `char`
  per byte, so a UTF-8 character of several bytes counts as several
  characters in every length, filter and error count, as in the source.
- Console input and output (lines 121-148) are not modelled. The verdict
  is returned instead of printed.
- `main` (lines 150-158) is not modelled: it seeds `rand`, picks an index
  with `rand() % list.size()`, and loops forever. `TestWordMean` instead
  requires the index to be in range.
- `memcpy` of three bytes into `type` (line 94) is modelled as its
  NUL-terminated reading: characters 1 and 2 of column 0. The
  over-read when column 0 is shorter than three characters is not
  modelled.
- An exception that nothing catches (`substr(1, 2)` on an empty first
  column) is modelled as `Undefined`, the same as undefined behaviour.
- ErrorMetric.ErrorCount: the `(signed)` casts at line 66 and the `size_t`
  sum are modelled as exact integers. The source agrees for strings shorter
  than 2^31 characters and wraps beyond.
- Grading.DecentAsWrittenAgrees: the `float` division at line 130 is
  modelled as exact rational comparison. That is exact while lengths are
  below 2^24; rounding above that is not modelled.
- RowRepair.AdaptRowDefinedness: like every lemma about a whole row, it
  assumes the row is shorter than 2^64 characters, so positions fit in
  `size_t`.
- Grading.FindAtLeastErrorsMean: requires the vector to have at most
  `SIZE_MAX` entries, as every `std::vector` does.

## Findings

| source | as written | input that shows it | evidently intended | confidence | as-written member | corrected member |
|---|---|---|---|---|---|---|
| LangTrainer/LangTrainer.cpp:58 | `accumulatePos += founded + 1` adds each absolute tab position to the running offset, so from the third tab on the offset is too large, by the first tab's position plus one at the third tab and by more at each later tab. The column comes out wrong, and when the tab lies before that offset the unsigned length and erase count wrap | the row "a\tb\tc\td" splits into a, b, "c\td", "c\td" (with wrap-around); the row "a\tb\tccc\td" splits into a, b, "c", "c\td" (without) | `accumulatePos = founded + 1`: the columns between consecutive tabs | high (not executed) | Columns.AsWrittenSplitsThreeTabRowWrongly, Columns.AsWrittenSplitsUnwrappedRowWrongly | Columns.ExtractColumns (round trip proved by Strings.SplitJoin) |
| LangTrainer/LangTrainer.cpp:130 | `instCheck.mean.size() - errors` is an unsigned subtraction, which wraps to a huge value when the answer has more errors than the meaning has characters | meaning "ab": answer "xyz" (3 errors) is "Decent", answer "xy" (2 errors) is "Too bad" | the share of the meaning left after the errors, negative (not decent) when errors exceed the length | high (not executed) | Grading.DecentAsWrittenNotMonotone, Grading.JudgeAsWrittenWraps | Grading.IsDecent (proved by Grading.DecentMeansMostlyInPlace; used by Grading.Judge, which Grading.JudgeAsWrittenAgrees relates to the verdict as written) |

=== FILE: columns.dfy ===
/** `extractColomnsFromRow`: splitting a dictionary row into its
    tab-separated columns.

    The program walks the tab positions of the original row while erasing
    the consumed prefix, and keeps in `accumulatePos` how many characters it
    has erased. It updates that counter with `+=` where `=` is meant, so
    the offsets it uses go wrong from the third tab on. `ExtractColumns` is
    the split the loop is evidently meant to perform; `ExtractColumnsAsWritten`
    follows the code as written, including 64-bit `size_t` wrap-around and
    the undefined behaviour of erasing past the end. The two agree on every
    row with at most two tabs, which is all the loader ever hands over. */
module Columns {
  import opened Strings
  import opened Cpp

  /** The split `extractColomnsFromRow` is meant to perform: cut the row at
      every tab. */
  function ExtractColumns(row: string): (cols: seq<string>)
    ensures |cols| == multiset(row)[TAB] + 1
    ensures forall k :: 0 <= k < |cols| ==> TAB !in cols[k]
    ensures Join(cols, TAB) == row
  {
    Split(row, TAB)
  }

  /** A row with exactly two tabs has three columns: before the first tab,
      between the two, and after the second. */
  lemma TwoTabColumns(row: string, tabs: seq<nat>)
    requires IsPositionsOf(tabs, row, TAB) && |tabs| == 2
    ensures tabs[0] < tabs[1] < |row|
    ensures ExtractColumns(row) == [row[..tabs[0]], row[tabs[0] + 1..tabs[1]], row[tabs[1] + 1..]]
  {
    GapBeforeFirst(tabs, row, TAB);
    GapAt(tabs, row, TAB, 1);
    GapAfterLast(tabs, row, TAB);
    ThreeColumns(row, tabs[0], tabs[1]);
  }

  /** A row whose only tabs are at `p` and `q` splits at them. */
  lemma ThreeColumns(row: string, p: nat, q: nat)
    requires p < q < |row| && row[p] == TAB && row[q] == TAB
    requires TAB !in row[..p] && TAB !in row[p + 1..q] && TAB !in row[q + 1..]
    ensures ExtractColumns(row) == [row[..p], row[p + 1..q], row[q + 1..]]
  {
    JoinAroundTwo(row, p, q);
    SplitJoin([row[..p], row[p + 1..q], row[q + 1..]], TAB);
  }

  /** A row with exactly one tab has two columns, before and after it. */
  lemma OneTabColumns(row: string, tabs: seq<nat>)
    requires IsPositionsOf(tabs, row, TAB) && |tabs| == 1
    ensures tabs[0] < |row|
    ensures ExtractColumns(row) == [row[..tabs[0]], row[tabs[0] + 1..]]
  {
    GapBeforeFirst(tabs, row, TAB);
    GapAfterLast(tabs, row, TAB);
    JoinAroundOne(row, tabs[0]);
    SplitJoin([row[..tabs[0]], row[tabs[0] + 1..]], TAB);
  }

  /** Cutting a row at one tab and joining the two pieces gives it back. */
  lemma JoinAroundOne(row: string, p: nat)
    requires p < |row| && row[p] == TAB
    ensures Join([row[..p], row[p + 1..]], TAB) == row
  {
    JoinTwo(row[..p], row[p + 1..]);
    SplitAround(row, p);
  }

  /** Cutting a row at two tabs and joining the three pieces gives it back. */
  lemma JoinAroundTwo(row: string, p: nat, q: nat)
    requires p < q < |row| && row[p] == TAB && row[q] == TAB
    ensures Join([row[..p], row[p + 1..q], row[q + 1..]], TAB) == row
  {
    var rest := row[p + 1..];
    JoinThree(row[..p], row[p + 1..q], row[q + 1..]);
    SplitAround(row, p);
    SplitAround(rest, q - p - 1);
    assert rest[..q - p - 1] == row[p + 1..q] && rest[q - p..] == row[q + 1..];
  }

  lemma JoinTwo(a: string, b: string)
    ensures Join([a, b], TAB) == a + [TAB] + b
  {
    assert [a, b][1..] == [b];
  }

  lemma JoinThree(a: string, b: string, c: string)
    ensures Join([a, b, c], TAB) == a + [TAB] + (b + [TAB] + c)
  {
    assert [a, b, c][1..] == [b, c];
    JoinTwo(b, c);
  }

  /** The loop of `extractColomnsFromRow` exactly as written: the column
      length `founded - accumulatePos` and the erase count
      `founded + 1 - accumulatePos` are unsigned and wrap, `substr` clamps
      an oversized length, erasing past the end is undefined, and
      `accumulatePos` grows by `founded + 1` at every step. */
  function ColumnsAsWrittenFrom(row: string, tabs: seq<nat>, acc: nat): (cols: Behaviour<seq<string>>)
    decreases |tabs|
  {
    if |tabs| == 0 then Defined([row])
    else
      var f := tabs[0];
      var col := row[..Min(SizeT(f - acc), |row|)];
      var cut := SizeT(f + 1 - acc);
      if cut > |row| then Undefined
      else Prepend(col, ColumnsAsWrittenFrom(row[cut..], tabs[1..], SizeT(acc + f + 1)))
  }

  /** `col` in front of the columns computed afterwards, if those are defined. */
  function Prepend(col: string, b: Behaviour<seq<string>>): (cols: Behaviour<seq<string>>) {
    match b
    case Undefined => Undefined
    case Defined(more) => Defined([col] + more)
  }

  /** One step of the loop as written, while no counter has wrapped. */
  lemma AsWrittenStep(row: string, tabs: seq<nat>, acc: nat)
    requires |tabs| > 0 && acc <= tabs[0] && tabs[0] + 1 - acc <= |row| < SIZE_MOD
    ensures ColumnsAsWrittenFrom(row, tabs, acc)
         == Prepend(row[..tabs[0] - acc],
                    ColumnsAsWrittenFrom(row[tabs[0] + 1 - acc..], tabs[1..], SizeT(acc + tabs[0] + 1)))
  {
  }

  function ExtractColumnsAsWritten(row: string): (cols: Behaviour<seq<string>>) {
    ColumnsAsWrittenFrom(row, CountElements(row, TAB), 0)
  }

  /** With no tab, the code as written returns the whole row. */
  lemma AsWrittenNoTab(row: string)
    requires multiset(row)[TAB] == 0
    ensures ExtractColumnsAsWritten(row) == Defined(ExtractColumns(row))
  {
    assert TAB !in row;
    assert Join([row], TAB) == row;
    SplitJoin([row], TAB);
  }

  /** With one tab, the code as written cuts the row once, correctly. */
  lemma AsWrittenOneTab(row: string)
    requires |row| < SIZE_MOD
    requires multiset(row)[TAB] == 1
    ensures ExtractColumnsAsWritten(row) == Defined(ExtractColumns(row))
  {
    var tabs := CountElements(row, TAB);
    CountElementsPositions(row, TAB);
    OneTabColumns(row, tabs);
    var p := tabs[0];
    AsWrittenStep(row, tabs, 0);
    assert tabs[1..] == [];
    assert row[p + 1 - 0..] == row[p + 1..] && row[..p - 0] == row[..p];
  }

  /** With two tabs, `accumulatePos` is still right when the second tab is
      handled, so the code as written cuts the row correctly. */
  lemma AsWrittenTwoTabs(row: string)
    requires |row| < SIZE_MOD
    requires multiset(row)[TAB] == 2
    ensures ExtractColumnsAsWritten(row) == Defined(ExtractColumns(row))
  {
    CountElementsPositions(row, TAB);
    AsWrittenAtPositions(row, CountElements(row, TAB));
  }

  lemma AsWrittenAtPositions(row: string, tabs: seq<nat>)
    requires |row| < SIZE_MOD && IsPositionsOf(tabs, row, TAB) && |tabs| == 2
    ensures ColumnsAsWrittenFrom(row, tabs, 0) == Defined(ExtractColumns(row))
  {
    TwoTabColumns(row, tabs);
    AsWrittenAtTwoTabs(row, tabs);
  }

  /** The code as written, given two tabs. */
  lemma AsWrittenAtTwoTabs(row: string, tabs: seq<nat>)
    requires |tabs| == 2 && tabs[0] < tabs[1] < |row| < SIZE_MOD
    ensures ColumnsAsWrittenFrom(row, tabs, 0)
         == Defined([row[..tabs[0]], row[tabs[0] + 1..tabs[1]], row[tabs[1] + 1..]])
  {
    var p, q := tabs[0], tabs[1];
    var rest := row[p + 1..];
    AsWrittenFirstOfTwo(row, tabs);
    AsWrittenAtSecondTab(rest, p, q);
    assert rest[..q - (p + 1)] == row[p + 1..q] && rest[q + 1 - (p + 1)..] == row[q + 1..];
    var c0, c1, c2 := row[..p], row[p + 1..q], row[q + 1..];
    var later := ColumnsAsWrittenFrom(rest, [q], p + 1);
    assert later == Defined([c1, c2]);
    assert Prepend(c0, later) == Defined([c0] + [c1, c2]);
    assert [c0] + [c1, c2] == [c0, c1, c2];
  }

  /** The first step of the code as written on two tabs: the first column
      is cut and `accumulatePos` becomes `p + 1`. */
  lemma AsWrittenFirstOfTwo(row: string, tabs: seq<nat>)
    requires |tabs| == 2 && tabs[0] < tabs[1] < |row| < SIZE_MOD
    ensures ColumnsAsWrittenFrom(row, tabs, 0)
         == Prepend(row[..tabs[0]], ColumnsAsWrittenFrom(row[tabs[0] + 1..], [tabs[1]], tabs[0] + 1))
  {
    var p := tabs[0];
    AsWrittenStep(row, tabs, 0);
    SizeTSmall(p + 1);
    assert tabs[1..] == [tabs[1]];
    assert row[..p - 0] == row[..p] && row[p + 1 - 0..] == row[p + 1..];
  }

  /** The second step with `accumulatePos` equal to `p + 1`, on what is left
      of the row after the first column and its tab were erased. */
  lemma AsWrittenAtSecondTab(rest: string, p: nat, q: nat)
    requires p < q && q - p <= |rest| < SIZE_MOD
    ensures ColumnsAsWrittenFrom(rest, [q], p + 1) == Defined([rest[..q - (p + 1)], rest[q + 1 - (p + 1)..]])
  {
    AsWrittenStep(rest, [q], p + 1);
    assert [q][1..] == [];
    var x, y := rest[..q - (p + 1)], rest[q + 1 - (p + 1)..];
    assert ColumnsAsWrittenFrom(y, [], SizeT(p + 1 + q + 1)) == Defined([y]);
    assert [x] + [y] == [x, y];
  }

  /** On every row with at most two tabs (the rows the loader produces) the
      code as written computes the intended split. */
  lemma AsWrittenAgreesUpToTwoTabs(row: string)
    requires |row| < SIZE_MOD
    requires multiset(row)[TAB] <= 2
    ensures ExtractColumnsAsWritten(row) == Defined(ExtractColumns(row))
  {
    if multiset(row)[TAB] == 0 {
      AsWrittenNoTab(row);
    } else if multiset(row)[TAB] == 1 {
      AsWrittenOneTab(row);
    } else {
      AsWrittenTwoTabs(row);
    }
  }

  /** With three tabs the code as written goes wrong: the third column keeps
      its tab and the last two columns come out twice. */
  lemma AsWrittenSplitsThreeTabRowWrongly()
    ensures ExtractColumns("a\tb\tc\td") == ["a", "b", "c", "d"]
    ensures ExtractColumnsAsWritten("a\tb\tc\td") == Defined(["a", "b", "c\td", "c\td"])
  {
    ThreeTabRowSplit();
    ThreeTabPositions();
    AsWrittenOnThreeTabRow();
  }

  lemma AsWrittenOnThreeTabRow()
    ensures ColumnsAsWrittenFrom("a\tb\tc\td", [1, 3, 5], 0) == Defined(["a", "b", "c\td", "c\td"])
  {
    var row, s2, s3 := "a\tb\tc\td", "b\tc\td", "c\td";
    FirstStepPieces();
    SecondStepOfThreeTabRow();
    AsWrittenStep(row, [1, 3, 5], 0);
    SizeTSmall(2);
    assert ["a"] + ["b", s3, s3] == ["a", "b", s3, s3];
  }

  lemma FirstStepPieces()
    ensures "a\tb\tc\td"[2..] == "b\tc\td" && "a\tb\tc\td"[..1] == "a" && [1, 3, 5][1..] == [3, 5]
  {
  }

  /** The second tab, at index 3, is handled correctly with `accumulatePos`
      equal to 2; the damage is done by the sum it leaves behind. */
  lemma SecondStepOfThreeTabRow()
    ensures ColumnsAsWrittenFrom("b\tc\td", [3, 5], 2) == Defined(["b", "c\td", "c\td"])
  {
    var s2, s3 := "b\tc\td", "c\td";
    var b := "b";
    WrappedThirdStep();
    AsWrittenStep(s2, [3, 5], 2);
    SizeTSmall(6);
    assert s2[2..] == s3 && s2[..1] == b && [3, 5][1..] == [5];
    assert [b] + [s3, s3] == [b, s3, s3];
  }

  lemma ThreeTabRowSplit()
    ensures ExtractColumns("a\tb\tc\td") == ["a", "b", "c", "d"]
  {
    assert "a\tb\tc\td" == Join(["a", "b", "c", "d"], TAB);
    SplitJoin(["a", "b", "c", "d"], TAB);
  }

  lemma ThreeTabPositions()
    ensures CountElements("a\tb\tc\td", TAB) == [1, 3, 5]
  {
    var row := "a\tb\tc\td";
    assert forall i :: 0 <= i < |row| && IsAt(row, i, TAB) ==> i == 1 || i == 3 || i == 5;
    assert IsPositionsOf([1, 3, 5], row, TAB);
    PositionsAreCountElements([1, 3, 5], row, TAB);
  }

  /** The third tab, at index 5, is handled with `accumulatePos` already 6:
      the column length wraps to 2^64 - 1 and is clamped to the whole rest,
      and nothing is erased. */
  lemma WrappedThirdStep()
    ensures ColumnsAsWrittenFrom("c\td", [5], 6) == Defined(["c\td", "c\td"])
  {
    assert SizeT(5 - 6) == SIZE_MOD - 1;
    assert SizeT(5 + 1 - 6) == 0;
    assert Min(SIZE_MOD - 1, 3) == 3;
    assert "c\td"[..3] == "c\td" && "c\td"[0..] == "c\td";
    assert [5][1..] == [];
    assert ColumnsAsWrittenFrom("c\td", [], SizeT(6 + 5 + 1)) == Defined(["c\td"]);
    assert ColumnsAsWrittenFrom("c\td", [5], 6)
        == Prepend("c\td"[..Min(SizeT(5 - 6), 3)], ColumnsAsWrittenFrom("c\td"[0..], [5][1..], SizeT(6 + 5 + 1)));
    assert Min(SizeT(5 - 6), 3) == 3;
    var cd := "c\td";
    assert [cd] + [cd] == [cd, cd];
    assert Prepend(cd, Defined([cd])) == Defined([cd, cd]);
  }

  /** The offset is too large from the third tab on even where nothing
      wraps: with the third column "ccc", `accumulatePos` is 6 at the tab
      at index 7, so one character is taken as the column and two are
      erased, where four should be. */
  lemma AsWrittenSplitsUnwrappedRowWrongly()
    ensures ExtractColumns("a\tb\tccc\td") == ["a", "b", "ccc", "d"]
    ensures ExtractColumnsAsWritten("a\tb\tccc\td") == Defined(["a", "b", "c", "c\td"])
  {
    UnwrappedRowSplit();
    UnwrappedRowPositions();
    AsWrittenOnUnwrappedRow();
  }

  lemma UnwrappedRowSplit()
    ensures ExtractColumns("a\tb\tccc\td") == ["a", "b", "ccc", "d"]
  {
    assert "a\tb\tccc\td" == Join(["a", "b", "ccc", "d"], TAB);
    SplitJoin(["a", "b", "ccc", "d"], TAB);
  }

  lemma UnwrappedRowPositions()
    ensures CountElements("a\tb\tccc\td", TAB) == [1, 3, 7]
  {
    var row := "a\tb\tccc\td";
    assert forall i :: 0 <= i < |row| && IsAt(row, i, TAB) ==> i == 1 || i == 3 || i == 7;
    assert IsPositionsOf([1, 3, 7], row, TAB);
    PositionsAreCountElements([1, 3, 7], row, TAB);
  }

  lemma AsWrittenOnUnwrappedRow()
    ensures ColumnsAsWrittenFrom("a\tb\tccc\td", [1, 3, 7], 0) == Defined(["a", "b", "c", "c\td"])
  {
    var row, s2, s4 := "a\tb\tccc\td", "b\tccc\td", "c\td";
    UnwrappedFirstStepPieces();
    SecondStepOfUnwrappedRow();
    AsWrittenStep(row, [1, 3, 7], 0);
    SizeTSmall(2);
    var later := ColumnsAsWrittenFrom(s2, [3, 7], 2);
    assert later == Defined(["b", "c", s4]);
    ConsOfThree("a", "b", "c", s4);
    assert Prepend("a", later) == Defined(["a"] + ["b", "c", s4]);
  }

  lemma ConsOfThree(a: string, b: string, c: string, d: string)
    ensures [a] + [b, c, d] == [a, b, c, d]
  {
  }

  lemma UnwrappedFirstStepPieces()
    ensures "a\tb\tccc\td"[2..] == "b\tccc\td" && "a\tb\tccc\td"[..1] == "a" && [1, 3, 7][1..] == [3, 7]
  {
  }

  lemma SecondStepOfUnwrappedRow()
    ensures ColumnsAsWrittenFrom("b\tccc\td", [3, 7], 2) == Defined(["b", "c", "c\td"])
  {
    var s2, s3, s4 := "b\tccc\td", "ccc\td", "c\td";
    ThirdStepOfUnwrappedRow();
    AsWrittenStep(s2, [3, 7], 2);
    SizeTSmall(6);
    assert s2[2..] == s3 && s2[..1] == "b" && [3, 7][1..] == [7];
    assert ["b"] + ["c", s4] == ["b", "c", s4];
  }

  /** The third tab, at index 7 of the row, is looked for at index
      `7 - 6 = 1` of what is left, "ccc\td", which is not a tab. */
  lemma ThirdStepOfUnwrappedRow()
    ensures ColumnsAsWrittenFrom("ccc\td", [7], 6) == Defined(["c", "c\td"])
  {
    var s3, s4 := "ccc\td", "c\td";
    AsWrittenStep(s3, [7], 6);
    SizeTSmall(14);
    assert s3[2..] == s4 && s3[..1] == "c" && [7][1..] == [];
    assert ColumnsAsWrittenFrom(s4, [], 14) == Defined([s4]);
    assert ["c"] + [s4] == ["c", s4];
  }
}

=== FILE: cpp.dfy ===
/** The pieces of C++ semantics the trainer relies on: `size_t` arithmetic,
    which wraps modulo 2^64, and the difference between a computation with
    a defined result and one that has undefined behaviour. */
module Cpp {

  /** `size_t` arithmetic is modulo 2^64. */
  const SIZE_MOD: int := 0x1_0000_0000_0000_0000

  /** The largest `size_t`; `std::string::npos` and `SIZE_MAX` both equal it. */
  const NPOS: nat := SIZE_MOD - 1

  /** `x` brought into the range of `size_t` by adding or subtracting 2^64. */
  function SizeT(x: int): (r: nat)
    ensures r < SIZE_MOD
    decreases if x < 0 then 1 else 0, if x < 0 then -x else x
  {
    if x < 0 then SizeT(x + SIZE_MOD)
    else if x >= SIZE_MOD then SizeT(x - SIZE_MOD)
    else x
  }

  /** `SizeT` is reduction modulo 2^64. */
  lemma {:induction false} SizeTIsMod(x: int)
    ensures SizeT(x) == x % SIZE_MOD
    decreases if x < 0 then 1 else 0, if x < 0 then -x else x
  {
    if x < 0 {
      SizeTIsMod(x + SIZE_MOD);
    } else if x >= SIZE_MOD {
      SizeTIsMod(x - SIZE_MOD);
    }
  }

  lemma SizeTSmall(x: int)
    requires 0 <= x < SIZE_MOD
    ensures SizeT(x) == x
  {
  }

  /** Adding `npos` to a position that is at least one steps back by one. */
  lemma NposPlus(t: nat)
    requires 1 <= t <= SIZE_MOD
    ensures SizeT(NPOS + t) == t - 1
  {
    assert SizeT(NPOS + t) == SizeT(t - 1);
  }

  /** What a computation of the program produces: a value, or undefined
      behaviour (erasing or indexing past the end of a string, reading an
      element a vector does not have). */
  datatype Behaviour<T> = Defined(value: T) | Undefined
}

=== FILE: errormetric.dfy ===
/** `countErrorsInString`: how far an answer is from a meaning, counted as
    the difference of their lengths plus the places of their common prefix
    where they differ. It is a positional count, not an edit distance. */
module ErrorMetric {
  import opened Strings

  /** `abs(x - y)`. */
  function AbsDiff(x: int, y: int): (d: nat)
    ensures d == x - y || d == y - x
  {
    if x >= y then x - y else y - x
  }

  /** The number of places among the first `n` where `a` and `b` differ. */
  function Mismatches(a: string, b: string, n: nat): (k: nat)
    requires n <= |a| && n <= |b|
    ensures k <= n
  {
    if n == 0 then 0
    else Mismatches(a, b, n - 1) + (if a[n - 1] != b[n - 1] then 1 else 0)
  }

  /** The places among the first `n` where `a` and `b` differ. */
  function MismatchSet(a: string, b: string, n: nat): (places: set<nat>)
    requires n <= |a| && n <= |b|
  {
    set i: nat | i < n && a[i] != b[i]
  }

  /** The error count of `check` against `orig`: at least the difference
      of the lengths, at most the longer length. */
  function ErrorCount(orig: string, check: string): (n: nat)
    ensures AbsDiff(|orig|, |check|) <= n <= Max(|orig|, |check|)
  {
    AbsDiff(|orig|, |check|) + Mismatches(orig, check, Min(|orig|, |check|))
  }

  /** The loop of `countErrorsInString`: start from the length difference
      and add one for every differing place of the common prefix. */
  method CountErrorsInString(orig: string, check: string) returns (count: nat)
    ensures count == ErrorCount(orig, check)
    ensures count == AbsDiff(|orig|, |check|) + |MismatchSet(orig, check, Min(|orig|, |check|))|
  {
    count := AbsDiff(|orig|, |check|);
    var n := Min(|orig|, |check|);
    for i := 0 to n
      invariant count == AbsDiff(|orig|, |check|) + Mismatches(orig, check, i)
    {
      if orig[i] != check[i] {
        count := count + 1;
      }
    }
    MismatchesCountSet(orig, check, n);
  }

  /** The places among the first `n` where `a` and `b` agree. */
  function MatchSet(a: string, b: string, n: nat): (places: set<nat>)
    requires n <= |a| && n <= |b|
  {
    set i: nat | i < n && a[i] == b[i]
  }

  /** The places among the first `n` that do not differ are the rest. */
  lemma {:induction false} MatchesCount(a: string, b: string, n: nat)
    requires n <= |a| && n <= |b|
    ensures |MatchSet(a, b, n)| == n - Mismatches(a, b, n)
  {
    if n > 0 {
      MatchesCount(a, b, n - 1);
      if a[n - 1] == b[n - 1] {
        assert MatchSet(a, b, n) == MatchSet(a, b, n - 1) + {n - 1};
      } else {
        assert MatchSet(a, b, n) == MatchSet(a, b, n - 1);
      }
    }
  }

  /** The recursive count is the size of the set of differing places. */
  lemma {:induction false} MismatchesCountSet(a: string, b: string, n: nat)
    requires n <= |a| && n <= |b|
    ensures Mismatches(a, b, n) == |MismatchSet(a, b, n)|
  {
    if n > 0 {
      MismatchesCountSet(a, b, n - 1);
      if a[n - 1] != b[n - 1] {
        assert MismatchSet(a, b, n) == MismatchSet(a, b, n - 1) + {n - 1};
      } else {
        assert MismatchSet(a, b, n) == MismatchSet(a, b, n - 1);
      }
    }
  }

  /** No differing place among the first `n` exactly when the first `n`
      characters agree. */
  lemma {:induction false} MismatchesZero(a: string, b: string, n: nat)
    requires n <= |a| && n <= |b|
    ensures Mismatches(a, b, n) == 0 <==> a[..n] == b[..n]
  {
    if n > 0 {
      MismatchesZero(a, b, n - 1);
      assert a[..n] == a[..n - 1] + [a[n - 1]];
      assert b[..n] == b[..n - 1] + [b[n - 1]];
      if a[..n] == b[..n] {
        assert a[..n - 1] == a[..n][..n - 1];
        assert b[..n - 1] == b[..n][..n - 1];
        assert a[n - 1] == a[..n][n - 1];
      }
    }
  }

  /** An answer has no errors exactly when it is the meaning itself. */
  lemma ErrorCountZero(orig: string, check: string)
    ensures ErrorCount(orig, check) == 0 <==> orig == check
  {
    var n := Min(|orig|, |check|);
    MismatchesZero(orig, check, n);
    if |orig| == |check| {
      assert orig[..n] == orig && check[..n] == check;
    }
  }

  lemma {:induction false} MismatchesSymmetric(a: string, b: string, n: nat)
    requires n <= |a| && n <= |b|
    ensures Mismatches(a, b, n) == Mismatches(b, a, n)
  {
    if n > 0 {
      MismatchesSymmetric(a, b, n - 1);
    }
  }

  /** The count does not depend on which string is the meaning. */
  lemma ErrorCountSymmetric(a: string, b: string)
    ensures ErrorCount(a, b) == ErrorCount(b, a)
  {
    MismatchesSymmetric(a, b, Min(|a|, |b|));
  }

  /** Place `i` counts as an error when only one of the strings reaches
      it, or both do and differ there. */
  predicate DiffersAt(a: string, b: string, i: nat) {
    if i < |a| && i < |b| then a[i] != b[i] else (i < |a|) != (i < |b|)
  }

  /** The errors among the first `n` places, with a missing character
      counted as differing from any present one. */
  function PaddedErrors(a: string, b: string, n: nat): (k: nat)
    ensures k <= n
  {
    if n == 0 then 0
    else PaddedErrors(a, b, n - 1) + (if DiffersAt(a, b, n - 1) then 1 else 0)
  }

  lemma {:induction false} PaddedOnCommonPrefix(a: string, b: string, n: nat)
    requires n <= |a| && n <= |b|
    ensures PaddedErrors(a, b, n) == Mismatches(a, b, n)
  {
    if n > 0 {
      PaddedOnCommonPrefix(a, b, n - 1);
    }
  }

  lemma {:induction false} PaddedPastCommonPrefix(a: string, b: string, n: nat)
    requires Min(|a|, |b|) <= n <= Max(|a|, |b|)
    ensures PaddedErrors(a, b, n) == Mismatches(a, b, Min(|a|, |b|)) + (n - Min(|a|, |b|))
  {
    if n == Min(|a|, |b|) {
      PaddedOnCommonPrefix(a, b, n);
    } else {
      PaddedPastCommonPrefix(a, b, n - 1);
    }
  }

  lemma {:induction false} PaddedPastBoth(a: string, b: string, n: nat)
    requires Max(|a|, |b|) <= n
    ensures PaddedErrors(a, b, n) == PaddedErrors(a, b, Max(|a|, |b|))
  {
    if n > Max(|a|, |b|) {
      PaddedPastBoth(a, b, n - 1);
    }
  }

  /** The error count is the number of places, up to the longer length or
      any bound past it, where the strings differ. */
  lemma ErrorCountIsPadded(a: string, b: string, n: nat)
    requires Max(|a|, |b|) <= n
    ensures ErrorCount(a, b) == PaddedErrors(a, b, n)
  {
    PaddedPastCommonPrefix(a, b, Max(|a|, |b|));
    PaddedPastBoth(a, b, n);
  }

  lemma {:induction false} PaddedTriangle(a: string, b: string, c: string, n: nat)
    ensures PaddedErrors(a, c, n) <= PaddedErrors(a, b, n) + PaddedErrors(b, c, n)
  {
    if n > 0 {
      PaddedTriangle(a, b, c, n - 1);
    }
  }

  /** Errors obey the triangle inequality: with the symmetry and the
      zero case, the count is a distance between strings. */
  lemma ErrorCountTriangle(a: string, b: string, c: string)
    ensures ErrorCount(a, c) <= ErrorCount(a, b) + ErrorCount(b, c)
  {
    var n := Max(Max(|a|, |b|), |c|);
    ErrorCountIsPadded(a, c, n);
    ErrorCountIsPadded(a, b, n);
    ErrorCountIsPadded(b, c, n);
    PaddedTriangle(a, b, c, n);
  }

  /** One error means either one wrong character in an answer of the right
      length, or a right prefix with one character too many or too few. */
  lemma OneError(orig: string, check: string)
    requires ErrorCount(orig, check) == 1
    ensures |orig| == |check| ==> |MismatchSet(orig, check, |orig|)| == 1
    ensures |orig| != |check| ==> AbsDiff(|orig|, |check|) == 1
                                  && orig[..Min(|orig|, |check|)] == check[..Min(|orig|, |check|)]
  {
    var n := Min(|orig|, |check|);
    MismatchesCountSet(orig, check, n);
    MismatchesZero(orig, check, n);
  }
}

=== FILE: grading.dfy ===
/** `findAtLeastErrorsMean` and the decisions of `testWordMean`: the entry
    whose meaning is nearest to the answer, and the verdict on an answer. */
module Grading {
  import opened Strings
  import opened Cpp
  import opened ErrorMetric
  import opened Loader

  /** `k` is the first entry whose meaning has the fewest errors against
      `input`. */
  predicate IsNearest(words: seq<DictWord>, input: string, k: nat) {
    && k < |words|
    && (forall i :: 0 <= i < |words| ==> ErrorCount(words[k].mean, input) <= ErrorCount(words[i].mean, input))
    && (forall i :: 0 <= i < k ==> ErrorCount(words[k].mean, input) < ErrorCount(words[i].mean, input))
  }

  /** The loop of `findAtLeastErrorsMean`: both records start at
      `SIZE_MAX`, and an entry replaces the record only when it has
      strictly fewer errors. If no entry ever does, the returned index is
      `SIZE_MAX`, past the end of the vector. */
  method FindAtLeastErrorsMean(words: seq<DictWord>, input: string) returns (r: Behaviour<nat>)
    requires |words| <= NPOS
    ensures r.Defined? <==> exists i :: 0 <= i < |words| && ErrorCount(words[i].mean, input) < NPOS
    ensures r.Defined? ==> IsNearest(words, input, r.value)
  {
    var indexRecord: nat := NPOS;
    var itselfRecord: nat := NPOS;
    for i := 0 to |words|
      invariant itselfRecord <= NPOS
      invariant itselfRecord == NPOS ==> indexRecord == NPOS
      invariant itselfRecord == NPOS <==> forall j :: 0 <= j < i ==> ErrorCount(words[j].mean, input) >= NPOS
      invariant itselfRecord < NPOS ==> && indexRecord < i
                                        && itselfRecord == ErrorCount(words[indexRecord].mean, input)
                                        && (forall j :: 0 <= j < i ==> itselfRecord <= ErrorCount(words[j].mean, input))
                                        && (forall j :: 0 <= j < indexRecord ==> itselfRecord < ErrorCount(words[j].mean, input))
    {
      var errors := CountErrorsInString(words[i].mean, input);
      if itselfRecord > errors {
        itselfRecord := errors;
        indexRecord := i;
      }
    }
    if indexRecord < |words| {
      r := Defined(indexRecord);
    } else {
      r := Undefined;
    }
  }

  /** The nearest entry with an exact answer is the first entry whose
      meaning is the answer. */
  lemma NearestExact(words: seq<DictWord>, input: string, k: nat)
    requires IsNearest(words, input, k) && words[k].mean == input
    ensures forall i :: 0 <= i < k ==> words[i].mean != input
  {
    ErrorCountZero(input, input);
    forall i | 0 <= i < k
      ensures words[i].mean != input
    {
      ErrorCountZero(words[i].mean, input);
    }
  }

  /** What `testWordMean` prints about an answer. */
  datatype Verdict =
    | Correct
    | DidYouMean(nearest: DictWord)
    | Typo
    | Decent(nearest: DictWord)
    | TooBad(nearest: DictWord)

  /** An answer with `errors` errors against a meaning of length `len` is
      decent when more than half of the meaning's length is left once the
      errors are taken off. */
  predicate IsDecent(len: nat, errors: nat) {
    2 * (len - errors) > len
  }

  /** The test of line 130 as written: `len - errors` is an unsigned
      subtraction, and a zero length divides to infinity or to NaN. */
  predicate DecentAsWritten(len: nat, errors: nat) {
    var diff := SizeT(len - errors);
    if len == 0 then diff > 0 else 2 * diff > len
  }

  /** Where the subtraction does not wrap, the test as written is the
      intended one. */
  lemma DecentAsWrittenAgrees(len: nat, errors: nat)
    requires 0 < len < SIZE_MOD && errors <= len
    ensures DecentAsWritten(len, errors) == IsDecent(len, errors)
  {
    SizeTSmall(len - errors);
  }

  /** An answer with more errors than the meaning has characters wraps the
      subtraction and is called decent, though no part of it is right. */
  lemma DecentAsWrittenWraps(len: nat, errors: nat)
    requires len < errors <= 0x4000_0000_0000_0000
    ensures DecentAsWritten(len, errors) && !IsDecent(len, errors)
  {
    SizeTIsMod(len - errors);
  }

  /** Against the meaning "ab", the answer "xyz" is called decent while
      the closer answer "xy" is called too bad. */
  lemma DecentAsWrittenNotMonotone()
    ensures ErrorCount("ab", "xy") == 2 && ErrorCount("ab", "xyz") == 3
    ensures !DecentAsWritten(2, 2) && DecentAsWritten(2, 3)
  {
    assert Mismatches("ab", "xy", 2) == 2;
    assert Mismatches("ab", "xyz", 2) == 2;
    DecentAsWrittenWraps(2, 3);
    DecentAsWrittenAgrees(2, 2);
  }

  /** A decent answer has more than half of the meaning's characters in
      place. */
  lemma DecentMeansMostlyInPlace(mean: string, input: string)
    requires IsDecent(|mean|, ErrorCount(mean, input))
    ensures 2 * |MatchSet(mean, input, Min(|mean|, |input|))| > |mean|
  {
    MatchesCount(mean, input, Min(|mean|, |input|));
  }

  /** The branches of `testWordMean` once the nearest entry is known, with
      the intended decent test `IsDecent`. */
  function Judge(target: DictWord, input: string, nearest: DictWord): (v: Verdict)
    ensures v.Correct? <==> input == target.mean
    ensures v.DidYouMean? <==> input != target.mean && input == nearest.mean && nearest.word == target.word
    ensures v.Typo? <==> && ErrorCount(target.mean, input) == 1
                         && !(input == nearest.mean && nearest.word == target.word)
    ensures v.Decent? <==> && ErrorCount(target.mean, input) >= 2
                           && !(input == nearest.mean && nearest.word == target.word)
                           && IsDecent(|target.mean|, ErrorCount(target.mean, input))
    ensures !v.Correct? && !v.Typo? ==> v.nearest == nearest
  {
    ErrorCountZero(target.mean, input);
    ErrorCountZero(nearest.mean, input);
    var errors := ErrorCount(target.mean, input);
    if errors == 0 then Correct
    else if ErrorCount(nearest.mean, input) == 0 && nearest.word == target.word then DidYouMean(nearest)
    else if errors == 1 then Typo
    else if IsDecent(|target.mean|, errors) then Decent(nearest)
    else TooBad(nearest)
  }

  /** The branches of `testWordMean` as written: the same as `Judge` except
      that the decent test is the unsigned one of line 130. */
  function JudgeAsWritten(target: DictWord, input: string, nearest: DictWord): (v: Verdict)
    ensures v.Correct? <==> input == target.mean
    ensures v.DidYouMean? <==> input != target.mean && input == nearest.mean && nearest.word == target.word
    ensures v.Typo? <==> && ErrorCount(target.mean, input) == 1
                         && !(input == nearest.mean && nearest.word == target.word)
    ensures v.Decent? <==> && ErrorCount(target.mean, input) >= 2
                           && !(input == nearest.mean && nearest.word == target.word)
                           && DecentAsWritten(|target.mean|, ErrorCount(target.mean, input))
    ensures !v.Correct? && !v.Typo? ==> v.nearest == nearest
  {
    ErrorCountZero(target.mean, input);
    ErrorCountZero(nearest.mean, input);
    var errors := ErrorCount(target.mean, input);
    if errors == 0 then Correct
    else if ErrorCount(nearest.mean, input) == 0 && nearest.word == target.word then DidYouMean(nearest)
    else if errors == 1 then Typo
    else if DecentAsWritten(|target.mean|, errors) then Decent(nearest)
    else TooBad(nearest)
  }

  /** While the answer has no more errors than the meaning has characters,
      the verdict as written is the intended one. */
  lemma JudgeAsWrittenAgrees(target: DictWord, input: string, nearest: DictWord)
    requires ErrorCount(target.mean, input) <= |target.mean| < SIZE_MOD
    ensures JudgeAsWritten(target, input, nearest) == Judge(target, input, nearest)
  {
    var errors := ErrorCount(target.mean, input);
    if errors >= 2 {
      DecentAsWrittenAgrees(|target.mean|, errors);
    }
  }

  /** An answer, not a suggestion, with more than one error and more errors
      than the meaning has characters is called decent as written and too
      bad as intended. */
  lemma JudgeAsWrittenWraps(target: DictWord, input: string, nearest: DictWord)
    requires |target.mean| < ErrorCount(target.mean, input) && 2 <= ErrorCount(target.mean, input)
    requires |input| <= 0x4000_0000_0000_0000
    requires !(input == nearest.mean && nearest.word == target.word)
    ensures JudgeAsWritten(target, input, nearest) == Decent(nearest)
    ensures Judge(target, input, nearest) == TooBad(nearest)
  {
    var errors := ErrorCount(target.mean, input);
    assert errors <= |input|;
    DecentAsWrittenWraps(|target.mean|, errors);
  }

  /** `testWordMean`: an exact answer is correct; otherwise the verdict is
      judged, as written, against the first entry nearest to the answer,
      which exists because the tested entry is itself a candidate. */
  method TestWordMean(words: seq<DictWord>, checkIndex: nat, input: string) returns (v: Behaviour<Verdict>)
    requires checkIndex < |words| <= NPOS
    ensures ErrorCount(words[checkIndex].mean, input) < NPOS ==> v.Defined?
    ensures input == words[checkIndex].mean ==> v == Defined(Correct)
    ensures v.Defined? && input != words[checkIndex].mean
            ==> exists k: nat :: IsNearest(words, input, k) && v.value == JudgeAsWritten(words[checkIndex], input, words[k])
  {
    var instCheck := words[checkIndex];
    var errors := CountErrorsInString(instCheck.mean, input);
    ErrorCountZero(instCheck.mean, input);
    if errors == 0 {
      v := Defined(Correct);
    } else {
      var nearest := FindAtLeastErrorsMean(words, input);
      match nearest
      case Undefined =>
        v := Undefined;
      case Defined(k) =>
        v := Defined(JudgeAsWritten(instCheck, input, words[k]));
    }
  }

  /** The nearest entry has no more errors than the tested one, so a
      verdict other than correct or a typo names an entry at least as
      close as the tested one; a suggestion names another entry, one whose
      meaning is the answer. */
  lemma NearestNoWorse(words: seq<DictWord>, checkIndex: nat, input: string, k: nat)
    requires checkIndex < |words| && IsNearest(words, input, k)
    ensures ErrorCount(words[k].mean, input) <= ErrorCount(words[checkIndex].mean, input)
    ensures JudgeAsWritten(words[checkIndex], input, words[k]).DidYouMean? ==> k != checkIndex && words[k].mean == input
  {
  }
}

=== FILE: loader.dfy ===
/** `extractAllWords`: the dictionary file, given as its lines, is filtered
    and folded into entries. A line starting with `'*'` names the section
    for the entries after it; every other line is repaired, split into
    columns, and becomes one entry. */
module Loader {
  import opened Strings
  import opened Cpp
  import opened Columns
  import opened RowRepair

  /** `dictWord`: `wordType` holds what `memcpy` copies into `type`, read up
      to its terminating NUL. */
  datatype DictWord = DictWord(word: string, mean: string, wordType: string, section: string)

  /** `str[0]`: on an empty string it reads the terminating NUL. */
  function FirstChar(line: string): (c: char)
    ensures |line| > 0 ==> c == line[0]
    ensures |line| == 0 ==> c == '\0'
  {
    if |line| == 0 then '\0' else line[0]
  }

  /** The filter `splitStringFromFile` is given: long enough or a section
      header, and not a comment. */
  predicate KeepLine(line: string) {
    (|line| >= 10 || FirstChar(line) == '*') && FirstChar(line) != '#'
  }

  /** A line is kept exactly when it is non-empty, does not start with
      `'#'`, and is at least ten characters long or starts with `'*'`. */
  lemma KeepLineMeaning(line: string)
    ensures KeepLine(line)
        <==> |line| > 0 && line[0] != '#' && (|line| >= 10 || line[0] == '*')
  {
  }

  /** The lines `splitStringFromFile` keeps, in file order. */
  function Filter(lines: seq<string>): (kept: seq<string>)
    ensures |kept| <= |lines|
    ensures forall k :: 0 <= k < |kept| ==> KeepLine(kept[k])
    ensures forall line :: line in kept <==> line in lines && KeepLine(line)
  {
    if |lines| == 0 then []
    else
      var rest := Filter(lines[1..]);
      assert forall line :: line in lines <==> line == lines[0] || line in lines[1..];
      if KeepLine(lines[0]) then [lines[0]] + rest else rest
  }

  /** A single line is kept as itself or dropped. */
  lemma FilterSingle(line: string)
    ensures Filter([line]) == if KeepLine(line) then [line] else []
  {
    assert [line][1..] == [];
  }

  /** Filtering works line by line: the kept lines of two stretches of the
      file are the kept lines of the first followed by those of the second,
      so order and repetitions are preserved. */
  lemma {:induction false} FilterAppend(a: seq<string>, b: seq<string>)
    ensures Filter(a + b) == Filter(a) + Filter(b)
  {
    if |a| > 0 {
      assert (a + b)[0] == a[0];
      assert (a + b)[1..] == a[1..] + b;
      FilterAppend(a[1..], b);
    } else {
      assert a + b == b;
    }
  }

  /** Filtering twice keeps what filtering once keeps. */
  lemma {:induction false} FilterIdempotent(lines: seq<string>)
    ensures Filter(Filter(lines)) == Filter(lines)
  {
    if |lines| > 0 {
      FilterIdempotent(lines[1..]);
      var rest := Filter(lines[1..]);
      if KeepLine(lines[0]) {
        assert ([lines[0]] + rest)[1..] == rest;
      }
    }
  }

  /** `row[0] == '*'`: the line names a section. */
  predicate IsHeader(row: string) {
    FirstChar(row) == '*'
  }

  /** The section a header line names: the line without its `'*'`. */
  function SectionName(row: string): (name: string)
    requires IsHeader(row)
    ensures [row[0]] + name == row
  {
    row[1..]
  }

  /** The body of the loop for an entry line: `adaptStringRow`, then
      `extractColomnsFromRow`, then the entry is read off the columns. The
      split used is the intended `ExtractColumns`; on a repaired row it is
      the split as written, by `AdaptedRowSplitsAsWritten`. */
  function ParseEntry(row: string, section: string): (e: Behaviour<DictWord>)
    ensures e.Defined? ==> e.value.section == section && |e.value.wordType| <= 2
  {
    match AdaptRow(row)
    case Undefined => Undefined
    case Defined(adapted) => EntryOfColumns(ExtractColumns(adapted), section)
  }

  /** `type` from characters 1 and 2 of column 0, `word` from column 1 and
      `mean` from column 2. Column 0 empty makes `substr(1, 2)` throw, and
      fewer than three columns makes `rowDisassembled[2]` read past the
      vector; neither has a result. */
  function EntryOfColumns(cols: seq<string>, section: string): (e: Behaviour<DictWord>)
    requires |cols| > 0
    ensures e.Defined? <==> |cols| >= 3 && |cols[0]| > 0
    ensures e.Defined? ==> && e.value.word == cols[1] && e.value.mean == cols[2]
                           && e.value.section == section
                           && e.value.wordType == cols[0][1..Min(3, |cols[0]|)]
  {
    if |cols[0]| == 0 || |cols| < 3 then Undefined
    else Defined(DictWord(cols[1], cols[2], cols[0][1..Min(3, |cols[0]|)], section))
  }

  /** What the repair hands to the split has at most two tabs, so the split
      as written agrees with the intended one on it. */
  lemma AdaptedRowSplitsAsWritten(row: string)
    requires |row| < SIZE_MOD && AdaptRow(row).Defined?
    ensures multiset(AdaptRow(row).value)[TAB] <= 2
    ensures ExtractColumnsAsWritten(AdaptRow(row).value) == Defined(ExtractColumns(AdaptRow(row).value))
  {
    AdaptRowDefinedness(row);
    if MarkerCuttable(Tail(row)) {
      AdaptRowCutsMarker(row);
    } else {
      AdaptRowWithoutMarker(row);
    }
    AsWrittenAgreesUpToTwoTabs(AdaptRow(row).value);
  }

  /** An adaptable row is read as three columns: the text before the first
      tab, the text between the first two tabs, and the rest of the row
      with its later tabs and its marker pair removed. */
  lemma ParseAdaptableEntry(row: string, section: string)
    requires |row| < SIZE_MOD && Adaptable(row)
    ensures FirstTab(row) < SecondTab(row)
    ensures ParseEntry(row, section) == EntryOfColumns(CutRowColumns(row), section)
  {
    ColumnsOfCutRow(row);
    ParseCutRow(row, section);
  }

  /** The columns an adaptable row should give. */
  function CutRowColumns(row: string): (cols: seq<string>)
    requires Adaptable(row)
    ensures |cols| == 3
  {
    FirstBeforeSecond(row);
    [row[..FirstTab(row)], row[FirstTab(row) + 1..SecondTab(row)], CutMarker(Tail(row))]
  }

  /** On an adaptable row, the entry is read off the columns of the cut row. */
  lemma ParseCutRow(row: string, section: string)
    requires |row| < SIZE_MOD && Adaptable(row)
    ensures ParseEntry(row, section)
         == EntryOfColumns(ExtractColumns(row[..SecondTab(row) + 1] + CutMarker(Tail(row))), section)
  {
    AdaptRowIsCut(row);
  }

  /** The cut row splits into the columns it should. */
  lemma ColumnsOfCutRow(row: string)
    requires Adaptable(row)
    ensures FirstTab(row) < SecondTab(row)
    ensures ExtractColumns(row[..SecondTab(row) + 1] + CutMarker(Tail(row))) == CutRowColumns(row)
  {
    CutTailHasNoTab(row);
    LeadingColumns(row, CutMarker(Tail(row)));
  }

  /** `ColumnsAfterRepair` with `p` and `q` fixed to the first two tabs
      `countElements` reports. */
  lemma LeadingColumns(row: string, t: string)
    requires multiset(row)[TAB] >= 2 && TAB !in t
    ensures FirstTab(row) < SecondTab(row)
    ensures ExtractColumns(row[..SecondTab(row) + 1] + t)
         == [row[..FirstTab(row)], row[FirstTab(row) + 1..SecondTab(row)], t]
  {
    var p, q := FirstTab(row), SecondTab(row);
    FirstTwoTabs(row);
    ColumnsAfterRepair(row, t, p, q);
    assert ExtractColumns(row[..q + 1] + t) == [row[..p], row[p + 1..q], t];
  }

  lemma CutTailHasNoTab(row: string)
    requires Adaptable(row)
    ensures TAB !in CutMarker(Tail(row))
  {
    assert multiset(CutMarker(Tail(row)))[TAB] == 0;
  }

  /** `p` and `q` are the first two tabs of `row`: tabs, in order, with no
      tab before or between them. */
  predicate LeadingTabs(row: string, p: nat, q: nat) {
    && p < q < |row| && row[p] == TAB && row[q] == TAB
    && TAB !in row[..p] && TAB !in row[p + 1..q]
  }

  /** The first two tabs reported are the leading tabs of the row. */
  lemma FirstTwoTabs(row: string)
    requires multiset(row)[TAB] >= 2
    ensures FirstTab(row) < SecondTab(row)
    ensures LeadingTabs(row, FirstTab(row), SecondTab(row))
  {
    var tabs := CountElements(row, TAB);
    CountElementsPositions(row, TAB);
    GapBeforeFirst(tabs, row, TAB);
    GapAt(tabs, row, TAB, 1);
  }

  /** A row kept through its second tab and followed by a tab-free text
      splits into the two leading columns and that text: `ThreeColumns`
      applied to the repaired row, whose only tabs are at `p` and `q`. */
  lemma ColumnsAfterRepair(row: string, t: string, p: nat, q: nat)
    requires LeadingTabs(row, p, q) && TAB !in t
    ensures ExtractColumns(row[..q + 1] + t) == [row[..p], row[p + 1..q], t]
  {
    var w := row[..q + 1] + t;
    assert w[..p] == row[..p] && w[p + 1..q] == row[p + 1..q] && w[q + 1..] == t;
    assert w[p] == TAB && w[q] == TAB;
    ThreeColumns(w, p, q);
  }

  /** With no `'-'` after the second tab, the wrapped erase takes the second
      tab with it and the entry has fewer than three columns. */
  lemma ParseEntryWithoutMarker(row: string, section: string)
    requires |row| < SIZE_MOD && multiset(row)[TAB] >= 2 && '-' !in Tail(row)
    ensures ParseEntry(row, section) == Undefined
  {
    AdaptRowWithoutMarker(row);
  }

  /** An entry line has a result exactly when it is adaptable and its first
      column is not empty. */
  lemma ParseEntryDefinedness(row: string, section: string)
    requires |row| < SIZE_MOD
    ensures ParseEntry(row, section).Defined?
        <==> Adaptable(row) && FirstTab(row) > 0
  {
    AdaptRowDefinedness(row);
    if Adaptable(row) {
      ParseAdaptableEntry(row, section);
    } else if multiset(row)[TAB] >= 2 && '-' !in Tail(row) {
      ParseEntryWithoutMarker(row, section);
    }
  }

  /** What the loop does with an entry line in a section. */
  type EntryParser = (string, string) -> Behaviour<DictWord>

  /** The loop of `extractAllWords` over the kept lines, from the section in
      force, with `parse` as the loop body for an entry line: a header
      changes the section, an entry line is appended, and a line without a
      result ends the run without one. */
  function Fold(lines: seq<string>, section: string, parse: EntryParser): (ws: Behaviour<seq<DictWord>>)
    ensures ws.Defined? ==> |ws.value| <= |lines|
  {
    if |lines| == 0 then Defined([])
    else if IsHeader(lines[0]) then Fold(lines[1..], SectionName(lines[0]), parse)
    else
      match parse(lines[0], section)
      case Undefined => Undefined
      case Defined(w) =>
        match Fold(lines[1..], section, parse)
        case Undefined => Undefined
        case Defined(ws) => Defined([w] + ws)
  }

  /** `extractAllWords`: the kept lines of the file, folded from the empty
      section a fresh `dictWord` starts with. */
  function ExtractAllWords(fileLines: seq<string>): (ws: Behaviour<seq<DictWord>>)
    ensures ws.Defined? ==> |ws.value| <= |fileLines|
  {
    Fold(Filter(fileLines), "", ParseEntry)
  }

  /** A line that gives an entry: adaptable, with a non-empty first
      column. */
  predicate EntryLine(row: string) {
    Adaptable(row) && FirstTab(row) > 0
  }

  /** The entry such a line gives: `type` from characters 1 and 2 of the
      first column, `word` from the second column, `mean` from the rest of
      the line with its later tabs and its marker pair removed. */
  function LineEntry(row: string, section: string): (w: DictWord)
    requires EntryLine(row)
    ensures |w.wordType| <= 2 && w.section == section
  {
    FirstBeforeSecond(row);
    DictWord(row[FirstTab(row) + 1..SecondTab(row)], CutMarker(Tail(row)),
             row[1..Min(3, FirstTab(row))], section)
  }

  lemma EntryOfLine(row: string, section: string)
    requires |row| < SIZE_MOD && EntryLine(row)
    ensures ParseEntry(row, section) == Defined(LineEntry(row, section))
  {
    ParseAdaptableEntry(row, section);
    ColumnsOfEntryLine(row);
  }

  lemma ColumnsOfEntryLine(row: string)
    requires EntryLine(row)
    ensures var cols := CutRowColumns(row);
      && cols[1] == LineEntry(row, "").word && cols[2] == LineEntry(row, "").mean
      && |cols[0]| > 0 && cols[0][1..Min(3, |cols[0]|)] == LineEntry(row, "").wordType
  {
    var cols := CutRowColumns(row);
    assert cols[0] == row[..FirstTab(row)];
    assert cols[0][1..Min(3, |cols[0]|)] == row[1..Min(3, FirstTab(row))];
  }

  /** Every line that is not a header gives an entry. */
  predicate AllEntryLines(lines: seq<string>) {
    forall j :: 0 <= j < |lines| && !IsHeader(lines[j]) ==> EntryLine(lines[j])
  }

  /** `ws` holds one entry per line that is not a header, in order: the
      entry of line `j`, in the section of the last header above it, comes
      after the entries of the lines before it. */
  predicate EntriesOf(lines: seq<string>, ws: seq<DictWord>) {
    && |ws| == EntryCount(lines)
    && forall j :: 0 <= j < |lines| && !IsHeader(lines[j]) ==>
         && EntryLine(lines[j])
         && EntryCount(lines[..j]) < |ws|
         && ws[EntryCount(lines[..j])] == LineEntry(lines[j], SectionAt(lines, j, ""))
  }

  /** `extractAllWords` has a result exactly when every kept line that is
      not a header gives an entry, and then its entries are those lines'
      entries. */
  lemma ExtractAllWordsMeaning(fileLines: seq<string>)
    requires forall i :: 0 <= i < |fileLines| ==> |fileLines[i]| < SIZE_MOD
    ensures ExtractAllWords(fileLines).Defined? <==> AllEntryLines(Filter(fileLines))
    ensures ExtractAllWords(fileLines).Defined? ==> EntriesOf(Filter(fileLines), ExtractAllWords(fileLines).value)
  {
    var kept := Filter(fileLines);
    forall j | 0 <= j < |kept|
      ensures |kept[j]| < SIZE_MOD
    {
      assert kept[j] in fileLines;
    }
    FoldOfLines(kept);
  }

  /** The fold from the empty section over lines of `size_t` length. */
  lemma FoldOfLines(lines: seq<string>)
    requires forall j :: 0 <= j < |lines| ==> |lines[j]| < SIZE_MOD
    ensures Fold(lines, "", ParseEntry).Defined? <==> AllEntryLines(lines)
    ensures Fold(lines, "", ParseEntry).Defined? ==> EntriesOf(lines, Fold(lines, "", ParseEntry).value)
  {
    FoldEntries(lines, "", ParseEntry);
    forall j | 0 <= j < |lines| && !IsHeader(lines[j])
      ensures ParseEntry(lines[j], SectionAt(lines, j, "")).Defined? <==> EntryLine(lines[j])
      ensures EntryLine(lines[j]) ==>
          ParseEntry(lines[j], SectionAt(lines, j, "")) == Defined(LineEntry(lines[j], SectionAt(lines, j, "")))
    {
      LineParses(lines[j], SectionAt(lines, j, ""));
    }
  }

  /** An entry line has a result exactly when it gives an entry, and then
      the result is that entry. */
  lemma LineParses(row: string, section: string)
    requires |row| < SIZE_MOD
    ensures ParseEntry(row, section).Defined? <==> EntryLine(row)
    ensures EntryLine(row) ==> ParseEntry(row, section) == Defined(LineEntry(row, section))
  {
    ParseEntryDefinedness(row, section);
    if EntryLine(row) {
      EntryOfLine(row, section);
    }
  }

  /** The section in force at line `j`: the name of the last header before
      it, or `initial` when there is none. */
  function SectionAt(lines: seq<string>, j: nat, initial: string): (section: string)
    requires j <= |lines|
  {
    if j == 0 then initial
    else if IsHeader(lines[j - 1]) then SectionName(lines[j - 1])
    else SectionAt(lines, j - 1, initial)
  }

  /** The number of entry (non-header) lines. */
  function EntryCount(lines: seq<string>): (n: nat)
    ensures n <= |lines|
  {
    if |lines| == 0 then 0
    else EntryCount(lines[..|lines| - 1]) + (if IsHeader(lines[|lines| - 1]) then 0 else 1)
  }

  /** Every entry line, parsed in the section in force at it, has a result. */
  predicate AllEntriesParse(lines: seq<string>, section: string, parse: EntryParser) {
    forall j :: 0 <= j < |lines| && !IsHeader(lines[j]) ==>
      parse(lines[j], SectionAt(lines, j, section)).Defined?
  }

  /** The fold has a result exactly when every entry line has one; then it
      holds one entry per entry line, and the entry of line `j`, parsed in
      the section in force at it, sits after the entries of the lines
      before it. */
  lemma FoldEntries(lines: seq<string>, section: string, parse: EntryParser)
    ensures Fold(lines, section, parse).Defined? <==> AllEntriesParse(lines, section, parse)
    ensures Fold(lines, section, parse).Defined? ==>
      && |Fold(lines, section, parse).value| == EntryCount(lines)
      && forall j :: 0 <= j < |lines| && !IsHeader(lines[j]) ==>
           && EntryCount(lines[..j]) < EntryCount(lines)
           && Fold(lines, section, parse).value[EntryCount(lines[..j])]
              == parse(lines[j], SectionAt(lines, j, section)).value
  {
    FoldDefinedness(lines, section, parse);
    if Fold(lines, section, parse).Defined? {
      FoldLength(lines, section, parse);
      forall j | 0 <= j < |lines| && !IsHeader(lines[j])
        ensures EntryCount(lines[..j]) < EntryCount(lines)
        ensures Fold(lines, section, parse).value[EntryCount(lines[..j])]
             == parse(lines[j], SectionAt(lines, j, section)).value
      {
        FoldEntryAt(lines, section, parse, j);
      }
    }
  }

  lemma {:induction false} FoldDefinedness(lines: seq<string>, section: string, parse: EntryParser)
    ensures Fold(lines, section, parse).Defined? <==> AllEntriesParse(lines, section, parse)
    decreases |lines|
  {
    if |lines| > 0 {
      var next := if IsHeader(lines[0]) then SectionName(lines[0]) else section;
      FoldDefinedness(lines[1..], next, parse);
      ShiftSections(lines, section, next);
      assert forall j :: 0 < j < |lines| ==> lines[1..][j - 1] == lines[j];
    }
  }

  lemma {:induction false} FoldLength(lines: seq<string>, section: string, parse: EntryParser)
    requires Fold(lines, section, parse).Defined?
    ensures |Fold(lines, section, parse).value| == EntryCount(lines)
    decreases |lines|
  {
    if |lines| > 0 {
      var next := if IsHeader(lines[0]) then SectionName(lines[0]) else section;
      FoldLength(lines[1..], next, parse);
      CountShift(lines, |lines| - 1);
      assert lines[..|lines|] == lines;
      assert lines[1..][..|lines| - 1] == lines[1..];
    }
  }

  lemma {:induction false} FoldEntryAt(lines: seq<string>, section: string, parse: EntryParser, j: nat)
    requires Fold(lines, section, parse).Defined?
    requires j < |lines| && !IsHeader(lines[j])
    ensures parse(lines[j], SectionAt(lines, j, section)).Defined?
    ensures EntryCount(lines[..j]) < |Fold(lines, section, parse).value|
    ensures Fold(lines, section, parse).value[EntryCount(lines[..j])]
         == parse(lines[j], SectionAt(lines, j, section)).value
    decreases |lines|
  {
    var next := if IsHeader(lines[0]) then SectionName(lines[0]) else section;
    if j == 0 {
      assert lines[..0] == [];
    } else {
      assert lines[1..][j - 1] == lines[j];
      FoldEntryAt(lines[1..], next, parse, j - 1);
      CountShift(lines, j - 1);
      SectionShift(lines, section, next, j - 1);
    }
  }

  /** Seen from the second line on, the sections in force are those of the
      remaining lines, started from the section the first line leaves. */
  lemma ShiftSections(lines: seq<string>, section: string, next: string)
    requires |lines| > 0
    requires next == if IsHeader(lines[0]) then SectionName(lines[0]) else section
    ensures SectionAt(lines, 0, section) == section
    ensures forall j :: 0 <= j < |lines| - 1 ==>
      SectionAt(lines, j + 1, section) == SectionAt(lines[1..], j, next)
  {
    forall j | 0 <= j < |lines| - 1
      ensures SectionAt(lines, j + 1, section) == SectionAt(lines[1..], j, next)
    {
      SectionShift(lines, section, next, j);
    }
  }

  lemma {:induction false} SectionShift(lines: seq<string>, section: string, next: string, j: nat)
    requires |lines| > 0 && j < |lines| - 1
    requires next == if IsHeader(lines[0]) then SectionName(lines[0]) else section
    ensures SectionAt(lines, j + 1, section) == SectionAt(lines[1..], j, next)
  {
    if j > 0 {
      assert lines[1..][j - 1] == lines[j];
      if !IsHeader(lines[j]) {
        SectionShift(lines, section, next, j - 1);
      }
    }
  }

  lemma {:induction false} CountShift(lines: seq<string>, j: nat)
    requires |lines| > 0 && j <= |lines| - 1
    ensures EntryCount(lines[..j + 1])
         == EntryCount(lines[1..][..j]) + (if IsHeader(lines[0]) then 0 else 1)
  {
    if j == 0 {
      assert lines[..1][..0] == [];
    } else {
      CountShift(lines, j - 1);
      assert lines[..j + 1][..j] == lines[..j];
      assert lines[1..][..j][..j - 1] == lines[1..][..j - 1];
      assert lines[1..][..j][j - 1] == lines[j];
    }
  }
}

=== FILE: rowrepair.dfy ===
/** `adaptStringRow`: the repair applied to every entry row before it is
    split. It deletes every tab after the second one, so that whatever
    follows the second tab becomes one column, and then deletes the first
    `'-'` at or after the second tab together with the character after it. */
module RowRepair {
  import opened Strings
  import opened Cpp

  /** The deletion loop: for `i` from 2 on, erase the character at
      `tabs[i] - (i - 2)`, the `i`-th tab shifted left by the `i - 2` tabs
      already erased before it. */
  function EraseExtraTabs(str: string, tabs: seq<nat>, i: nat): (r: string)
    requires 2 <= i <= |tabs|
    requires forall j :: i <= j < |tabs| ==> j - 2 <= tabs[j] < |str| + (i - 2)
    ensures |r| == |str| - (|tabs| - i)
    decreases |tabs| - i
  {
    if i == |tabs| then str
    else
      var at := tabs[i] - (i - 2);
      EraseExtraTabs(str[..at] + str[at + 1..], tabs, i + 1)
  }

  /** The string the deletion loop holds while it works: the row up to the
      second tab (at `t1`), the stretch up to `a` without its tabs, and the
      untouched rest. Before step `i`, `a` is one past the `(i-1)`-th tab. */
  function LoopState(s: string, t1: nat, a: nat): (state: string)
    requires t1 < a <= |s|
  {
    s[..t1 + 1] + RemoveAll(s[t1 + 1..a], TAB) + s[a..]
  }

  /** Erasing the next tab (at `b`, shifted left by the `shift` characters
      already erased) extends the tab-free stretch past it. */
  lemma EraseStep(s: string, t1: nat, a: nat, b: nat, shift: nat)
    requires t1 < a <= b < |s|
    requires TAB !in s[a..b] && s[b] == TAB
    requires |LoopState(s, t1, a)| == |s| - shift
    ensures shift <= b && b - shift < |LoopState(s, t1, a)|
    ensures var str, at := LoopState(s, t1, a), b - shift;
            str[..at] + str[at + 1..] == LoopState(s, t1, b + 1)
    ensures |LoopState(s, t1, b + 1)| == |s| - (shift + 1)
  {
    var head, r, gap, rest := s[..t1 + 1], RemoveAll(s[t1 + 1..a], TAB), s[a..b], s[b + 1..];
    var p := head + r + gap;
    StateBeforeStep(s, t1, a, b);
    assert |p| == b - shift;
    EraseAt(p, TAB, rest);
    StateAfterStep(s, t1, a, b);
  }

  /** Before the step, the loop's string is the stretch already cleaned,
      the tab-free gap, the tab to erase, and the rest. */
  lemma StateBeforeStep(s: string, t1: nat, a: nat, b: nat)
    requires t1 < a <= b < |s| && s[b] == TAB
    ensures LoopState(s, t1, a)
         == s[..t1 + 1] + RemoveAll(s[t1 + 1..a], TAB) + s[a..b] + [TAB] + s[b + 1..]
  {
    var head, r, gap, rest := s[..t1 + 1], RemoveAll(s[t1 + 1..a], TAB), s[a..b], s[b + 1..];
    assert s[a..] == gap + [TAB] + rest;
    Regroup(head, r, gap, [TAB] + rest);
  }

  /** After the step, the cleaned stretch has grown by the gap. */
  lemma StateAfterStep(s: string, t1: nat, a: nat, b: nat)
    requires t1 < a <= b < |s| && s[b] == TAB && TAB !in s[a..b]
    ensures LoopState(s, t1, b + 1)
         == s[..t1 + 1] + RemoveAll(s[t1 + 1..a], TAB) + s[a..b] + s[b + 1..]
  {
    var head, r, gap, rest := s[..t1 + 1], RemoveAll(s[t1 + 1..a], TAB), s[a..b], s[b + 1..];
    assert s[t1 + 1..b + 1] == s[t1 + 1..a] + (gap + [TAB]);
    RemoveAllAppend(s[t1 + 1..a], gap + [TAB], TAB);
    RemoveAllAppend(gap, [TAB], TAB);
    RemoveAllAbsent(gap, TAB);
    assert RemoveAll([TAB], TAB) == [];
    assert RemoveAll(s[t1 + 1..b + 1], TAB) == r + gap;
    Regroup(head, r, gap, rest);
  }

  lemma Regroup(w: string, x: string, y: string, z: string)
    ensures w + x + y + z == w + (x + y) + z
    ensures w + x + (y + z) == w + x + y + z
  {
  }

  /** Erasing the character at index `|p|` of `p + [c] + q` leaves `p + q`. */
  lemma EraseAt(p: string, c: char, q: string)
    ensures var str := p + [c] + q;
            str[..|p|] + str[|p| + 1..] == p + q
  {
    var str := p + [c] + q;
    assert str[..|p|] == p && str[|p| + 1..] == q;
  }

  /** Once no tab is left after `a`, the loop's string is the merged row. */
  lemma EraseDone(s: string, t1: nat, a: nat)
    requires t1 < a <= |s|
    requires TAB !in s[a..]
    ensures LoopState(s, t1, a) == s[..t1 + 1] + RemoveAll(s[t1 + 1..], TAB)
  {
    RemoveAllAbsent(s[a..], TAB);
    assert s[t1 + 1..] == s[t1 + 1..a] + s[a..];
    RemoveAllAppend(s[t1 + 1..a], s[a..], TAB);
    var head, r := s[..t1 + 1], RemoveAll(s[t1 + 1..a], TAB);
    assert head + r + s[a..] == head + (r + s[a..]);
  }

  /** What the deletion loop needs to know about the tab positions: they
      increase, each holds a tab, and no tab lies strictly between two
      neighbours or after the last one. */
  predicate TabLayout(s: string, tabs: seq<nat>) {
    && (forall a, b :: 0 <= a < b < |tabs| ==> tabs[a] < tabs[b])
    && (forall k :: 0 <= k < |tabs| ==> tabs[k] < |s| && s[tabs[k]] == TAB)
    && (forall k :: 1 <= k < |tabs| ==> TAB !in s[tabs[k - 1] + 1..tabs[k]])
    && (|tabs| > 0 ==> TAB !in s[tabs[|tabs| - 1] + 1..])
  }

  /** The positions `countElements` reports have that layout. */
  lemma LayoutOfPositions(s: string, tabs: seq<nat>)
    requires IsPositionsOf(tabs, s, TAB)
    ensures TabLayout(s, tabs)
  {
    forall k | 1 <= k < |tabs|
      ensures TAB !in s[tabs[k - 1] + 1..tabs[k]]
    {
      GapAt(tabs, s, TAB, k);
    }
    if |tabs| > 0 {
      GapAfterLast(tabs, s, TAB);
    }
  }

  /** Run from step `i` on, the deletion loop removes exactly the tabs after
      the second one. */
  lemma {:induction false} EraseExtraTabsMeaning(s: string, tabs: seq<nat>, i: nat)
    requires TabLayout(s, tabs)
    requires 2 <= i <= |tabs|
    requires |LoopState(s, tabs[1], tabs[i - 1] + 1)| == |s| - (i - 2)
    ensures forall j :: i <= j < |tabs| ==> j - 2 <= tabs[j] < |s|
    ensures EraseExtraTabs(LoopState(s, tabs[1], tabs[i - 1] + 1), tabs, i)
         == s[..tabs[1] + 1] + RemoveAll(s[tabs[1] + 1..], TAB)
    decreases |tabs| - i
  {
    LaterTabsInRange(s, tabs, i);
    if i == |tabs| {
      EraseDone(s, tabs[1], tabs[i - 1] + 1);
    } else {
      EraseNextTab(s, tabs, i);
      EraseExtraTabsMeaning(s, tabs, i + 1);
    }
  }

  /** The tab positions the loop still has to visit are valid indices, far
      enough right for the shift. */
  lemma LaterTabsInRange(s: string, tabs: seq<nat>, i: nat)
    requires TabLayout(s, tabs)
    ensures forall j :: i <= j < |tabs| ==> j - 2 <= tabs[j] < |s|
  {
    forall j | i <= j < |tabs|
      ensures j - 2 <= tabs[j] < |s|
    {
      IncreasingAtLeastIndex(tabs, j);
    }
  }

  /** Step `i` of the loop erases the `i`-th tab and moves the loop's
      string on to the next state. */
  lemma EraseNextTab(s: string, tabs: seq<nat>, i: nat)
    requires TabLayout(s, tabs)
    requires 2 <= i < |tabs|
    requires |LoopState(s, tabs[1], tabs[i - 1] + 1)| == |s| - (i - 2)
    ensures tabs[1] < tabs[i] + 1 <= |s|
    ensures |LoopState(s, tabs[1], tabs[i] + 1)| == |s| - (i + 1 - 2)
    ensures forall j :: i <= j < |tabs| ==> j - 2 <= tabs[j] < |LoopState(s, tabs[1], tabs[i - 1] + 1)| + (i - 2)
    ensures EraseExtraTabs(LoopState(s, tabs[1], tabs[i - 1] + 1), tabs, i)
         == EraseExtraTabs(LoopState(s, tabs[1], tabs[i] + 1), tabs, i + 1)
  {
    LaterTabsInRange(s, tabs, i);
    var str := LoopState(s, tabs[1], tabs[i - 1] + 1);
    var at := tabs[i] - (i - 2);
    var next := LoopState(s, tabs[1], tabs[i] + 1);
    assert tabs[1] <= tabs[i - 1] < tabs[i];
    EraseStep(s, tabs[1], tabs[i - 1] + 1, tabs[i], i - 2);
    EraseUnfold(str, tabs, i, next);
  }

  /** One turn of the deletion loop. */
  lemma EraseUnfold(str: string, tabs: seq<nat>, i: nat, next: string)
    requires 2 <= i < |tabs|
    requires forall j :: i <= j < |tabs| ==> j - 2 <= tabs[j] < |str| + (i - 2)
    requires tabs[i] - (i - 2) < |str|
    requires next == str[..tabs[i] - (i - 2)] + str[tabs[i] - (i - 2) + 1..]
    ensures EraseExtraTabs(str, tabs, i) == EraseExtraTabs(next, tabs, i + 1)
  {
  }

  /** The position of the first tab. */
  function FirstTab(s: string): (t0: nat)
    requires multiset(s)[TAB] >= 1
    ensures t0 < |s| && s[t0] == TAB
  {
    CountElements(s, TAB)[0]
  }

  /** The position of the second tab, which `adaptStringRow` reads. */
  function SecondTab(s: string): (t1: nat)
    requires multiset(s)[TAB] >= 2
    ensures t1 < |s| && s[t1] == TAB
  {
    CountElements(s, TAB)[1]
  }

  /** What follows the second tab once the later tabs are deleted. */
  function Tail(s: string): (t: string)
    requires multiset(s)[TAB] >= 2
    ensures TAB !in t
    ensures |t| == |s| - SecondTab(s) - 1 - (multiset(s)[TAB] - 2)
  {
    var t1 := SecondTab(s);
    RemoveAllCounts(s[t1 + 1..], TAB);
    TabsAfterSecond(s);
    RemoveAll(s[t1 + 1..], TAB)
  }

  /** All tabs but the first two lie after the second one. */
  lemma TabsAfterSecond(s: string)
    requires multiset(s)[TAB] >= 2
    ensures multiset(s[SecondTab(s) + 1..])[TAB] == multiset(s)[TAB] - 2
  {
    var t1 := SecondTab(s);
    PrefixThroughSecondTab(s);
    assert s == s[..t1 + 1] + s[t1 + 1..];
  }

  /** The row up to and including the second tab holds exactly two tabs. */
  lemma PrefixThroughSecondTab(s: string)
    requires multiset(s)[TAB] >= 2
    ensures multiset(s[..SecondTab(s) + 1])[TAB] == 2
  {
    var tabs, t1 := CountElements(s, TAB), SecondTab(s);
    var head := s[..t1 + 1];
    CountElementsPositions(s, TAB);
    AdaptedTabs(s, tabs, head);
    PositionsAreCountElements(tabs[..2], head, TAB);
  }

  /** The first tab comes before the second. */
  lemma FirstBeforeSecond(s: string)
    requires multiset(s)[TAB] >= 2
    ensures FirstTab(s) < SecondTab(s)
  {
    CountElementsPositions(s, TAB);
  }

  /** The row with every tab after the second one deleted: the loop of
      `adaptStringRow`. */
  function MergeExtraTabs(s: string): (m: string)
    requires multiset(s)[TAB] >= 2
    ensures m == s[..SecondTab(s) + 1] + Tail(s)
  {
    MergeLoop(s);
    EraseExtraTabs(s, CountElements(s, TAB), 2)
  }

  /** The deletion loop, started on the row itself, can run to the end and
      leaves the row through its second tab and the tail. */
  lemma MergeLoop(s: string)
    requires multiset(s)[TAB] >= 2
    ensures var tabs := CountElements(s, TAB);
      && (forall j :: 2 <= j < |tabs| ==> j - 2 <= tabs[j] < |s| + (2 - 2))
      && EraseExtraTabs(s, tabs, 2) == s[..SecondTab(s) + 1] + Tail(s)
  {
    var tabs := CountElements(s, TAB);
    InitialLoopState(s, tabs[1]);
    LayoutOfCount(s);
    EraseExtraTabsMeaning(s, tabs, 2);
  }

  /** Before the first step the loop holds the row itself. */
  lemma InitialLoopState(s: string, t1: nat)
    requires t1 < |s|
    ensures LoopState(s, t1, t1 + 1) == s
  {
    assert RemoveAll(s[t1 + 1..t1 + 1], TAB) == [];
    assert s[..t1 + 1] + s[t1 + 1..] == s;
  }

  lemma LayoutOfCount(s: string)
    ensures TabLayout(s, CountElements(s, TAB))
  {
    CountElementsPositions(s, TAB);
    LayoutOfPositions(s, CountElements(s, TAB));
  }

  /** `t` holds a `'-'` that is not its last character. */
  predicate MarkerCuttable(t: string)
    decreases |t|
  {
    |t| >= 2 && (t[0] == '-' || MarkerCuttable(t[1..]))
  }

  /** `t` with its first `'-'` and the character after it deleted. */
  function CutMarker(t: string): (r: string)
    requires MarkerCuttable(t)
    ensures |r| == |t| - 2
    ensures multiset(r) <= multiset(t)
    decreases |t|
  {
    if t[0] == '-' then
      assert t == t[..2] + t[2..];
      t[2..]
    else
      assert t == [t[0]] + t[1..];
      [t[0]] + CutMarker(t[1..])
  }

  /** The program's way of cutting the marker: `find` the first `'-'` from
      `from` on and erase it and the next character. */
  lemma {:induction false} FindAndEraseIsCutMarker(m: string, from: nat)
    requires from <= |m|
    requires MarkerCuttable(m[from..])
    ensures FindFrom(m, '-', from).Some?
    ensures FindFrom(m, '-', from).value + 2 <= |m|
    ensures CutMarker(m[from..]) == m[from..FindFrom(m, '-', from).value] + m[FindFrom(m, '-', from).value + 2..]
    decreases |m| - from
  {
    if m[from] == '-' {
      assert m[from..][2..] == m[from + 2..];
    } else {
      assert m[from..][1..] == m[from + 1..];
      FindAndEraseIsCutMarker(m, from + 1);
      var ind := FindFrom(m, '-', from + 1).value;
      assert m[from..ind] == [m[from]] + m[from + 1..ind];
    }
  }

  /** A `'-'` that is not the last character is exactly what `find` from
      `from` locates with room for one more character after it. */
  lemma {:induction false} CuttableIffFound(m: string, from: nat)
    requires from <= |m|
    ensures MarkerCuttable(m[from..])
        <==> FindFrom(m, '-', from).Some? && FindFrom(m, '-', from).value + 2 <= |m|
    decreases |m| - from
  {
    if from < |m| && m[from] != '-' {
      assert m[from..][1..] == m[from + 1..];
      CuttableIffFound(m, from + 1);
    }
  }

  /** The rows `adaptStringRow` repairs as intended: at least two tabs, and
      after the second one, once later tabs are gone, a `'-'` that is not
      the last character. */
  predicate Adaptable(s: string) {
    multiset(s)[TAB] >= 2 && MarkerCuttable(Tail(s))
  }

  /** `adaptStringRow`. It reads the second tab's position, erases the
      later tabs, and erases two characters where `EraseMarker` says. Fewer
      than two tabs is undefined behaviour: the second position is read from
      a vector that does not have it. */
  function AdaptRow(s: string): (r: Behaviour<string>)
    ensures r.Defined? ==> |r.value| + 2 <= |s|
  {
    if multiset(s)[TAB] < 2 then Undefined
    else EraseMarker(MergeExtraTabs(s), SecondTab(s))
  }

  /** The last two statements of `adaptStringRow` on the merged row `m`:
      `find("-")` on the text from `t1` on, plus `t1`, gives the index of
      the first `'-'` from `t1` on; when there is none, `npos` plus `t1`
      wraps round to `t1 - 1`. The two characters from that index are
      erased; an erase reaching past the end is undefined behaviour. */
  function EraseMarker(m: string, t1: nat): (r: Behaviour<string>)
    requires t1 <= |m|
    ensures r.Defined? ==> |r.value| + 2 == |m|
  {
    var found := match FindFrom(m, '-', t1)
      case Some(p) => p - t1
      case None => NPOS;
    var ind := SizeT(found + t1);
    if ind + 2 <= |m| then Defined(m[..ind] + m[ind + 2..]) else Undefined
  }

  /** The erase is defined exactly when the text after `t1` holds a `'-'`
      that is not its last character, or no `'-'` at all. */
  lemma EraseMarkerDefinedness(m: string, t1: nat)
    requires 1 <= t1 < |m| < SIZE_MOD && m[t1] != '-'
    ensures EraseMarker(m, t1).Defined? <==> MarkerCuttable(m[t1 + 1..]) || '-' !in m[t1 + 1..]
  {
    CuttableIffFound(m, t1 + 1);
    assert FindFrom(m, '-', t1) == FindFrom(m, '-', t1 + 1);
    match FindFrom(m, '-', t1)
    case None =>
      NposPlus(t1);
    case Some(p) =>
      assert m[t1 + 1..][p - t1 - 1] == m[p];
      SizeTSmall(p);
  }

  /** With a cuttable marker after `t1`, the erase is the marker cut. */
  lemma EraseMarkerCuts(m: string, t1: nat)
    requires t1 < |m| < SIZE_MOD && m[t1] != '-' && MarkerCuttable(m[t1 + 1..])
    ensures EraseMarker(m, t1) == Defined(m[..t1 + 1] + CutMarker(m[t1 + 1..]))
  {
    var p := FindMarker(m, t1);
    EraseMarkerAt(m, t1, p);
    SpliceAround(m, t1 + 1, p);
  }

  /** Where `find` stops: the first `'-'` after `t1`, with the marker cut
      being the erase there. */
  lemma FindMarker(m: string, t1: nat) returns (p: nat)
    requires t1 < |m| && m[t1] != '-' && MarkerCuttable(m[t1 + 1..])
    ensures FindFrom(m, '-', t1) == Some(p) && t1 < p && p + 2 <= |m|
    ensures CutMarker(m[t1 + 1..]) == m[t1 + 1..p] + m[p + 2..]
  {
    FindAndEraseIsCutMarker(m, t1 + 1);
    assert FindFrom(m, '-', t1) == FindFrom(m, '-', t1 + 1);
    p := FindFrom(m, '-', t1).value;
  }

  /** When `find` succeeds at `p`, the erase removes `m[p]` and `m[p+1]`. */
  lemma EraseMarkerAt(m: string, t1: nat, p: nat)
    requires t1 <= |m| < SIZE_MOD && FindFrom(m, '-', t1) == Some(p) && p + 2 <= |m|
    ensures EraseMarker(m, t1) == Defined(m[..p] + m[p + 2..])
  {
    SizeTSmall(p);
  }

  lemma SpliceAround(m: string, a: nat, p: nat)
    requires a <= p && p + 2 <= |m|
    ensures m[..p] + m[p + 2..] == m[..a] + (m[a..p] + m[p + 2..])
  {
    assert m[..p] == m[..a] + m[a..p];
  }

  /** With no `'-'` from `t1` on, the wrapped index erases the character
      before `t1` and the one at `t1`. */
  lemma EraseMarkerWraps(m: string, t1: nat)
    requires 1 <= t1 < |m| < SIZE_MOD && m[t1] != '-' && '-' !in m[t1 + 1..]
    ensures EraseMarker(m, t1) == Defined(m[..t1 - 1] + m[t1 + 1..])
  {
    assert '-' !in m[t1..] by {
      assert m[t1..] == [m[t1]] + m[t1 + 1..];
    }
    NposPlus(t1);
  }

  /** The merged row holds the second tab and then the tail. */
  lemma MergedAround(s: string)
    requires multiset(s)[TAB] >= 2
    ensures var m, t1 := MergeExtraTabs(s), SecondTab(s);
            && t1 < |m| && m[t1] == TAB && m[t1 + 1..] == Tail(s) && m[..t1 + 1] == s[..t1 + 1]
  {
    var m, t1 := MergeExtraTabs(s), SecondTab(s);
    assert m[t1] == s[..t1 + 1][t1];
  }

  /** The repair is defined exactly for rows with two tabs whose tail either
      holds a cuttable marker or no `'-'` at all. */
  lemma AdaptRowDefinedness(s: string)
    requires |s| < SIZE_MOD
    ensures AdaptRow(s).Defined?
        <==> multiset(s)[TAB] >= 2 && (MarkerCuttable(Tail(s)) || '-' !in Tail(s))
  {
    if multiset(s)[TAB] >= 2 {
      MergedAround(s);
      FirstBeforeSecond(s);
      EraseMarkerDefinedness(MergeExtraTabs(s), SecondTab(s));
    }
  }

  /** On an adaptable row the repair keeps everything through the second
      tab, cuts the marker pair from the tail, and leaves exactly the first
      two tabs, at their old positions. */
  lemma AdaptRowCutsMarker(s: string)
    requires |s| < SIZE_MOD && Adaptable(s)
    ensures AdaptRow(s) == Defined(s[..SecondTab(s) + 1] + CutMarker(Tail(s)))
    ensures CountElements(AdaptRow(s).value, TAB) == CountElements(s, TAB)[..2]
    ensures |AdaptRow(s).value| == |s| - (multiset(s)[TAB] - 2) - 2
  {
    AdaptRowIsCut(s);
    CutRowTabs(s);
  }

  lemma AdaptRowIsCut(s: string)
    requires |s| < SIZE_MOD && Adaptable(s)
    ensures AdaptRow(s) == Defined(s[..SecondTab(s) + 1] + CutMarker(Tail(s)))
  {
    MergedAround(s);
    EraseMarkerCuts(MergeExtraTabs(s), SecondTab(s));
  }

  /** The cut row keeps the first two tabs and loses the later ones and the
      marker pair. */
  lemma CutRowTabs(s: string)
    requires Adaptable(s)
    ensures CountElements(s[..SecondTab(s) + 1] + CutMarker(Tail(s)), TAB) == CountElements(s, TAB)[..2]
    ensures |s[..SecondTab(s) + 1] + CutMarker(Tail(s))| == |s| - (multiset(s)[TAB] - 2) - 2
  {
    var t1 := SecondTab(s);
    var r := s[..t1 + 1] + CutMarker(Tail(s));
    assert r[..t1 + 1] == s[..t1 + 1];
    assert TAB !in r[t1 + 1..] by {
      assert r[t1 + 1..] == CutMarker(Tail(s));
      assert multiset(CutMarker(Tail(s)))[TAB] == 0;
    }
    KeepsFirstTwoTabs(s, r);
  }

  /** A row that agrees with `s` through the second tab and has no tab
      after it reports the first two tab positions of `s`. */
  lemma KeepsFirstTwoTabs(s: string, r: string)
    requires multiset(s)[TAB] >= 2
    requires SecondTab(s) < |r| && r[..SecondTab(s) + 1] == s[..SecondTab(s) + 1]
    requires TAB !in r[SecondTab(s) + 1..]
    ensures CountElements(r, TAB) == CountElements(s, TAB)[..2]
  {
    var tabs := CountElements(s, TAB);
    CountElementsPositions(s, TAB);
    AdaptedTabs(s, tabs, r);
    PositionsAreCountElements(tabs[..2], r, TAB);
  }

  /** Without a `'-'` in the tail, `npos` wraps the erase onto the character
      before the second tab and the tab itself: the row keeps at most one
      tab, none when the first two tabs were adjacent. */
  lemma AdaptRowWithoutMarker(s: string)
    requires |s| < SIZE_MOD && multiset(s)[TAB] >= 2 && '-' !in Tail(s)
    ensures SecondTab(s) >= 1
    ensures AdaptRow(s) == Defined(s[..SecondTab(s) - 1] + Tail(s))
    ensures multiset(AdaptRow(s).value)[TAB] == if s[SecondTab(s) - 1] == TAB then 0 else 1
  {
    AdaptRowWraps(s);
    TabsBeforeSecond(s);
    assert multiset(Tail(s))[TAB] == 0;
  }

  /** Without a `'-'` after the second tab the erase steps back one place. */
  lemma AdaptRowWraps(s: string)
    requires |s| < SIZE_MOD && multiset(s)[TAB] >= 2 && '-' !in Tail(s)
    ensures SecondTab(s) >= 1
    ensures AdaptRow(s) == Defined(s[..SecondTab(s) - 1] + Tail(s))
  {
    MergedAround(s);
    FirstBeforeSecond(s);
    EraseMarkerWraps(MergeExtraTabs(s), SecondTab(s));
    SamePrefix(MergeExtraTabs(s), s, SecondTab(s) + 1, SecondTab(s) - 1);
  }

  lemma SamePrefix(a: string, b: string, k: nat, j: nat)
    requires j <= k <= |a| && k <= |b| && a[..k] == b[..k]
    ensures a[..j] == b[..j]
  {
    assert a[..j] == a[..k][..j];
  }

  /** Up to the character before the second tab there is one tab, unless
      that character is the first tab. */
  lemma TabsBeforeSecond(s: string)
    requires multiset(s)[TAB] >= 2 && SecondTab(s) >= 1
    ensures multiset(s[..SecondTab(s) - 1])[TAB] == if s[SecondTab(s) - 1] == TAB then 0 else 1
  {
    var t1 := SecondTab(s);
    PrefixThroughSecondTab(s);
    LastTwo(s[..t1 + 1]);
    assert s[..t1 + 1][..t1 - 1] == s[..t1 - 1];
  }

  lemma LastTwo(x: string)
    requires |x| >= 2
    ensures x == x[..|x| - 2] + [x[|x| - 2]] + [x[|x| - 1]]
  {
  }

  /** A row that keeps the prefix through the second tab and has no tab
      after it has exactly the first two tabs. */
  lemma AdaptedTabs(s: string, tabs: seq<nat>, r: string)
    requires IsPositionsOf(tabs, s, TAB) && |tabs| >= 2
    requires tabs[1] < |r| && r[..tabs[1] + 1] == s[..tabs[1] + 1]
    requires TAB !in r[tabs[1] + 1..]
    ensures IsPositionsOf(tabs[..2], r, TAB)
  {
    var two := tabs[..2];
    assert tabs[0] < tabs[1];
    assert r[tabs[0]] == TAB && r[tabs[1]] == TAB by {
      assert r[..tabs[1] + 1][tabs[0]] == s[..tabs[1] + 1][tabs[0]];
      assert r[..tabs[1] + 1][tabs[1]] == s[..tabs[1] + 1][tabs[1]];
    }
    forall i | tabs[1] < i < |r|
      ensures r[i] != TAB
    {
      assert r[tabs[1] + 1..][i - tabs[1] - 1] == r[i];
    }
    forall i | 0 <= i < |r| && IsAt(r, i, TAB)
      ensures i == tabs[0] || i == tabs[1]
    {
      assert i <= tabs[1];
      assert s[i] == TAB by {
        assert r[..tabs[1] + 1][i] == s[..tabs[1] + 1][i];
      }
      OnlyFirstTwo(s, tabs, i);
    }
  }

  /** A tab at or before the second tab is the first or the second. */
  lemma OnlyFirstTwo(s: string, tabs: seq<nat>, i: nat)
    requires IsPositionsOf(tabs, s, TAB) && |tabs| >= 2
    requires i <= tabs[1] && i < |s| && s[i] == TAB
    ensures i == tabs[0] || i == tabs[1]
  {
    assert IsAt(s, i, TAB);
    var k :| 0 <= k < |tabs| && tabs[k] == i;
    assert k <= 1;
  }
}

=== FILE: strings.dfy ===
/** Character-level helpers shared by the row parser: the positions of a
    separator in a string (the program's `countElements`), removal of every
    occurrence of a character, joining columns back together, and the
    `std::string::find` search that the row repair uses. */
module Strings {

  /** The column separator of the dictionary file. */
  const TAB: char := '\t'

  /** The result of a search that may fail; `None` stands for `std::string::npos`. */
  datatype Option<T> = None | Some(value: T)

  function Min(a: int, b: int): (m: int) { if a <= b then a else b }

  function Max(a: int, b: int): (m: int) { if a <= b then b else a }

  /** `s` holds `c` at index `i`. */
  predicate IsAt(s: string, i: nat, c: char)
    requires i < |s|
  {
    s[i] == c
  }

  /** `ps` lists exactly the indices of `s` that hold `c`, in increasing order. */
  predicate IsPositionsOf(ps: seq<nat>, s: string, c: char) {
    && (forall k :: 0 <= k < |ps| ==> ps[k] < |s| && s[ps[k]] == c)
    && (forall k, m :: 0 <= k < m < |ps| ==> ps[k] < ps[m])
    && (forall i :: 0 <= i < |s| && IsAt(s, i, c) ==> i in ps)
  }

  /** Every index of `s` holding `el`, in increasing order: the loop of
      `countElements`, which scans left to right and appends each hit. */
  function CountElements(s: string, el: char): (r: seq<nat>)
    ensures forall k :: 0 <= k < |r| ==> r[k] < |s| && s[r[k]] == el
    ensures |r| == multiset(s)[el]
    decreases |s|
  {
    if |s| == 0 then []
    else
      var front := CountElements(s[..|s| - 1], el);
      assert s == s[..|s| - 1] + [s[|s| - 1]];
      if s[|s| - 1] == el then front + [|s| - 1] else front
  }

  /** `CountElements` lists exactly the positions of `el`, in increasing
      order. */
  lemma {:induction false} CountElementsPositions(s: string, el: char)
    ensures IsPositionsOf(CountElements(s, el), s, el)
    decreases |s|
  {
    if |s| > 0 {
      var n := |s| - 1;
      var front := CountElements(s[..n], el);
      CountElementsPositions(s[..n], el);
      forall i | 0 <= i < |s| && IsAt(s, i, el)
        ensures i in CountElements(s, el)
      {
        if i < n {
          assert IsAt(s[..n], i, el);
          var k :| 0 <= k < |front| && front[k] == i;
          assert CountElements(s, el)[k] == i;
        } else {
          assert CountElements(s, el)[|front|] == i;
        }
      }
    }
  }

  /** An increasing list of naturals has its k-th element at least k. */
  lemma {:induction false} IncreasingAtLeastIndex(ps: seq<nat>, k: nat)
    requires forall a, b :: 0 <= a < b < |ps| ==> ps[a] < ps[b]
    requires k < |ps|
    ensures k <= ps[k]
  {
    if k > 0 {
      IncreasingAtLeastIndex(ps, k - 1);
    }
  }

  /** The positions of a character are unique: any list with the defining
      property is the one `CountElements` builds. */
  lemma {:induction false} PositionsAreCountElements(ps: seq<nat>, s: string, c: char)
    requires IsPositionsOf(ps, s, c)
    ensures ps == CountElements(s, c)
    decreases |s|
  {
    PositionsBounded(ps, s, c);
    if |s| > 0 {
      var n := |s| - 1;
      if s[n] == c {
        var init := DropLastPosition(ps, s, c);
        PositionsAreCountElements(init, s[..n], c);
      } else {
        forall k | 0 <= k < |ps|
          ensures ps[k] < n
        {
          assert s[ps[k]] == c;
        }
        PositionsAreCountElements(ps, s[..n], c);
      }
    }
  }

  /** A stretch of `s` that no listed position falls into holds no `c`. */
  lemma GapFree(ps: seq<nat>, s: string, c: char, lo: nat, hi: nat)
    requires IsPositionsOf(ps, s, c)
    requires lo <= hi <= |s|
    requires forall k :: 0 <= k < |ps| ==> ps[k] < lo || hi <= ps[k]
    ensures c !in s[lo..hi]
  {
    forall i | lo <= i < hi
      ensures s[i] != c
    {
      assert !IsAt(s, i, c);
    }
    assert forall i :: 0 <= i < hi - lo ==> s[lo..hi][i] == s[lo + i];
  }

  /** Between two neighbouring positions, before the first one and after
      the last one, `c` does not occur: the `i`-th gap runs from one past
      position `i - 1` (or from 0) up to position `i` (or to the end). */
  lemma GapBetween(ps: seq<nat>, s: string, c: char, i: nat)
    requires IsPositionsOf(ps, s, c)
    requires i <= |ps|
    ensures var lo, hi := (if i == 0 then 0 else ps[i - 1] + 1), (if i < |ps| then ps[i] else |s|);
            lo <= hi <= |s| && c !in s[lo..hi]
  {
    var lo := if i == 0 then 0 else ps[i - 1] + 1;
    var hi := if i < |ps| then ps[i] else |s|;
    if 0 < i < |ps| {
      assert ps[i - 1] < ps[i];
    }
    forall k | 0 <= k < |ps|
      ensures ps[k] < lo || hi <= ps[k]
    {
      if k < i - 1 {
        assert ps[k] < ps[i - 1];
      } else if i < k {
        assert ps[i] < ps[k];
      }
    }
    GapFree(ps, s, c, lo, hi);
  }

  /** No `c` before the first position. */
  lemma GapBeforeFirst(ps: seq<nat>, s: string, c: char)
    requires IsPositionsOf(ps, s, c) && |ps| > 0
    ensures ps[0] <= |s| && c !in s[..ps[0]]
  {
    GapBetween(ps, s, c, 0);
    assert s[0..ps[0]] == s[..ps[0]];
  }

  /** No `c` strictly between positions `i - 1` and `i`. */
  lemma GapAt(ps: seq<nat>, s: string, c: char, i: nat)
    requires IsPositionsOf(ps, s, c) && 0 < i < |ps|
    ensures ps[i - 1] < ps[i] < |s| && c !in s[ps[i - 1] + 1..ps[i]]
  {
    GapBetween(ps, s, c, i);
  }

  /** No `c` after the last position. */
  lemma GapAfterLast(ps: seq<nat>, s: string, c: char)
    requires IsPositionsOf(ps, s, c) && |ps| > 0
    ensures ps[|ps| - 1] < |s| && c !in s[ps[|ps| - 1] + 1..]
  {
    GapBetween(ps, s, c, |ps|);
  }

  /** There are no more positions than characters. */
  lemma PositionsBounded(ps: seq<nat>, s: string, c: char)
    requires IsPositionsOf(ps, s, c)
    ensures |ps| <= |s|
  {
    if |ps| > 0 {
      IncreasingAtLeastIndex(ps, |ps| - 1);
    }
  }

  /** When the last character is `c`, its index closes the list, and the
      rest lists the positions in the shorter string. */
  lemma DropLastPosition(ps: seq<nat>, s: string, c: char) returns (init: seq<nat>)
    requires IsPositionsOf(ps, s, c)
    requires |s| > 0 && s[|s| - 1] == c
    ensures |ps| > 0 && ps == init + [|s| - 1]
    ensures IsPositionsOf(init, s[..|s| - 1], c)
  {
    LastPositionAtEnd(ps, s, c);
    init := ps[..|ps| - 1];
    InitPositions(ps, s, c);
    assert ps == init + [|s| - 1];
  }

  lemma LastPositionAtEnd(ps: seq<nat>, s: string, c: char)
    requires IsPositionsOf(ps, s, c)
    requires |s| > 0 && s[|s| - 1] == c
    ensures |ps| > 0 && ps[|ps| - 1] == |s| - 1
  {
    assert IsAt(s, |s| - 1, c);
    var m :| 0 <= m < |ps| && ps[m] == |s| - 1;
    assert ps[|ps| - 1] < |s|;
  }

  lemma InitPositions(ps: seq<nat>, s: string, c: char)
    requires IsPositionsOf(ps, s, c)
    requires |ps| > 0 && |s| > 0 && ps[|ps| - 1] == |s| - 1
    ensures IsPositionsOf(ps[..|ps| - 1], s[..|s| - 1], c)
  {
    var n, init := |s| - 1, ps[..|ps| - 1];
    forall k | 0 <= k < |init|
      ensures init[k] < n && s[..n][init[k]] == c
    {
      assert ps[k] < ps[|ps| - 1];
    }
    forall i | 0 <= i < n && IsAt(s[..n], i, c)
      ensures i in init
    {
      assert IsAt(s, i, c);
      var j :| 0 <= j < |ps| && ps[j] == i;
      assert init[j] == i;
    }
  }

  /** `s` with every occurrence of `c` deleted. */
  function RemoveAll(s: string, c: char): (r: string)
    ensures |r| <= |s|
    decreases |s|
  {
    if |s| == 0 then []
    else
      (if s[0] == c then [] else [s[0]]) + RemoveAll(s[1..], c)
  }

  /** No `c` is left, and every other character is kept. */
  lemma {:induction false} RemoveAllCounts(s: string, c: char)
    ensures c !in RemoveAll(s, c)
    ensures multiset(RemoveAll(s, c)) == multiset(s)[c := 0]
    ensures |RemoveAll(s, c)| == |s| - multiset(s)[c]
    decreases |s|
  {
    if |s| > 0 {
      RemoveAllCounts(s[1..], c);
      assert s == [s[0]] + s[1..];
    }
  }

  lemma {:induction false} RemoveAllAppend(a: string, b: string, c: char)
    ensures RemoveAll(a + b, c) == RemoveAll(a, c) + RemoveAll(b, c)
    decreases |a|
  {
    if |a| > 0 {
      assert (a + b)[1..] == a[1..] + b;
      RemoveAllAppend(a[1..], b, c);
    } else {
      assert a + b == b;
    }
  }

  lemma {:induction false} RemoveAllAbsent(s: string, c: char)
    requires c !in s
    ensures RemoveAll(s, c) == s
    decreases |s|
  {
    if |s| > 0 {
      RemoveAllAbsent(s[1..], c);
      assert s == [s[0]] + s[1..];
    }
  }

  /** The columns glued back together with `sep` between neighbours. */
  function Join(cols: seq<string>, sep: char): (s: string)
    decreases |cols|
  {
    if |cols| == 0 then ""
    else if |cols| == 1 then cols[0]
    else cols[0] + [sep] + Join(cols[1..], sep)
  }

  /** A string containing `sep` cannot be one separator-free column. */
  lemma {:induction false} JoinContainsSeparator(cols: seq<string>, sep: char)
    requires |cols| >= 2
    ensures sep in Join(cols, sep)
  {
    assert Join(cols, sep)[|cols[0]|] == sep;
  }

  /** Cutting at the first separator is determined by the string. */
  lemma FirstSeparatorUnique(a: string, b: string, a': string, b': string, sep: char)
    requires sep !in a && sep !in a'
    requires a + [sep] + b == a' + [sep] + b'
    ensures a == a' && b == b'
  {
    var s := a + [sep] + b;
    assert s[|a|] == sep && s[|a'|] == sep;
    assert |a| == |a'|;
    assert a == s[..|a|] && a' == s[..|a'|];
    assert b == s[|a| + 1..] && b' == s[|a'| + 1..];
  }

  /** Separator-free columns are recovered from their join: splitting on
      `sep` is the inverse of `Join`. */
  lemma {:induction false} JoinInjective(cs: seq<string>, ds: seq<string>, sep: char)
    requires |cs| > 0 && |ds| > 0
    requires forall k :: 0 <= k < |cs| ==> sep !in cs[k]
    requires forall k :: 0 <= k < |ds| ==> sep !in ds[k]
    requires Join(cs, sep) == Join(ds, sep)
    ensures cs == ds
    decreases |cs|
  {
    if |cs| == 1 && |ds| >= 2 {
      JoinContainsSeparator(ds, sep);
      assert false;
    } else if |ds| == 1 && |cs| >= 2 {
      JoinContainsSeparator(cs, sep);
      assert false;
    } else if |cs| >= 2 {
      FirstSeparatorUnique(cs[0], Join(cs[1..], sep), ds[0], Join(ds[1..], sep), sep);
      JoinInjective(cs[1..], ds[1..], sep);
      assert cs == [cs[0]] + cs[1..] && ds == [ds[0]] + ds[1..];
    }
  }

  /** `s.substr(from).find(c) + from`: the first index at or after `from`
      holding `c`, or `None` when there is none. */
  function FindFrom(s: string, c: char, from: nat): (r: Option<nat>)
    requires from <= |s|
    ensures r.Some? ==> from <= r.value < |s| && s[r.value] == c && c !in s[from..r.value]
    ensures r.None? ==> c !in s[from..]
    decreases |s| - from
  {
    if from == |s| then None
    else if s[from] == c then Some(from)
    else
      var r := FindFrom(s, c, from + 1);
      assert s[from..] == [s[from]] + s[from + 1..];
      if r.Some? then
        assert s[from..r.value] == [s[from]] + s[from + 1..r.value];
        r
      else r
  }
  /** `s` cut at every `sep`: the text up to the next separator is a part,
      the separator is dropped, and the rest is cut the same way; the text
      after the last separator is the last part. */
  function Split(s: string, sep: char): (parts: seq<string>)
    ensures |parts| == multiset(s)[sep] + 1
    ensures forall k :: 0 <= k < |parts| ==> sep !in parts[k]
    ensures Join(parts, sep) == s
    decreases |s|
  {
    match FindFrom(s, sep, 0)
    case None =>
      assert s[0..] == s;
      [s]
    case Some(p) =>
      var more := Split(s[p + 1..], sep);
      var parts := [s[..p]] + more;
      assert s[0..p] == s[..p];
      SplitAround(s, p);
      assert parts[1..] == more;
      parts
  }

  /** `s` is the text before index `p`, the character at `p`, and the rest,
      and the counts of its characters add up accordingly. */
  lemma SplitAround(s: string, p: nat)
    requires p < |s|
    ensures s == s[..p] + [s[p]] + s[p + 1..]
    ensures multiset(s) == multiset(s[..p]) + multiset([s[p]]) + multiset(s[p + 1..])
  {
    assert s == s[..p] + [s[p]] + s[p + 1..];
  }

  /** Splitting undoes joining: separator-free parts come back unchanged. */
  lemma SplitJoin(parts: seq<string>, sep: char)
    requires |parts| > 0
    requires forall k :: 0 <= k < |parts| ==> sep !in parts[k]
    ensures Split(Join(parts, sep), sep) == parts
  {
    JoinInjective(Split(Join(parts, sep), sep), parts, sep);
  }

}
